=== FILE: README.md ===
# TaskSphere core in Dafny

TaskSphere is a single-page project manager: projects own tasks and journal entries,
all kept in one IndexedDB database in the browser. This project models its logic as
pure Dafny functions over immutable values, and proves what that logic promises.

- **The storage wrapper** (`src/db/db.js`). The three object stores are maps from
  auto-increment keys to records (`KeyedStore`, `Db`). `add` hands out a fresh key.
  `update` is a whole-record `put`. `delete` removes one key. The index reads return
  exactly the records of one project, in key order.
- **The upcoming-tasks pipeline** (`src/components/UpcomingTasks.jsx`). The model
  collects every project's not-completed tasks, tagged with the project name
  (`Upcoming.Collect`). It expands recurring tasks into dated occurrences with the
  source's emit-then-test loop (`Expansion.Emit`). It sorts them stably by due date
  and colours each due date relative to today. The loop is proved equal to a closed
  form (`Expansion.Occurrences`, `Expansion.Count`): an inclusive end date, and a
  cap of 100 counted over the whole shared output list.
- **The decisions inside the event handlers** of the task form, task list, report,
  project list, journal editor and journal list. These are validation, payload
  construction, the choice between add and update, status toggling, chip colours,
  report counts, the journal preview and the confirm-delete dialogs. Each is a
  function from the state before to the state after. The outcome of each store
  request is a boolean parameter.

Dates are integer day numbers (`Records.Day`), so a `YYYY-MM-DD` string stands for
the day it names. Today's date is a parameter. A JavaScript field that may be
missing, `null` or `NaN` is an `Option`. The `||` default idiom is `Js.OrString` or
`Js.OrInt`, and `String.prototype.trim` is `Js.Trim`.

Three behaviours of the code are easy to miss, and the model keeps them:
- A recurring task with no end date yields 101 occurrences when it is expanded alone,
  not 100. The loop pushes first and only then tests whether the list is longer
  than 100 (`Expansion.UnboundedLone`).
- `updateProject`, `updateTask` and `updateJournal` replace the whole record; they
  do not merge the payload into it. A status toggle therefore leaves a task holding
  only its id and status (`TaskList.ToggleWipesTask`).
- Deleting a project does not delete its tasks. The confirm handler calls only
  `deleteProject`, so the project's tasks and journals remain, still indexed under
  the deleted id (`ProjectList.DeleteOrphans`).

## Model

| member | source | states |
|---|---|---|
| `Js.OrString` | src/components/TaskForm.jsx:31-38 | `v \|\| fallback` is the value when it is a non-empty string, and the fallback when it is missing or empty |
| `Js.OrInt` | src/components/UpcomingTasks.jsx:49 | `n \|\| fallback` is the number unless it is 0 or `NaN`/missing, in which case it is the fallback |
| `Js.Truthy` | src/components/JournalEditor.jsx:47 | a string is truthy exactly when `v \|\| ''` is non-empty, and then `v \|\| fallback` is the string itself |
| `Js.TrimStart` | src/components/TaskForm.jsx:63 | the result is the suffix of the input after a run of whitespace, and starts with a non-whitespace character |
| `Js.TrimEnd` | src/components/TaskForm.jsx:63 | the result is the prefix of the input before a run of whitespace, and ends with a non-whitespace character |
| `Js.Trim` | src/components/TaskForm.jsx:63-64 | `trim()` is the input with its leading and trailing whitespace removed: a window `s[i..j]` with only whitespace before and after it, empty exactly when the input is all whitespace, and otherwise neither starting nor ending with whitespace |
| `Js.TrimIdempotent` | src/components/ProjectList.jsx:85-86 | trimming an already trimmed string changes nothing |
| `KeyedStore.Empty` | src/db/db.js:17 | a freshly created object store holds no records and its key generator is valid |
| `KeyedStore.Add` | src/db/db.js:62-64 | `add` on a valid store always succeeds, under a key not in use before, and adds exactly that one record |
| `KeyedStore.Put` | src/db/db.js:74 | `put` leaves exactly the given fields at the key, whether or not a record was there, leaves every other key as it was, and moves the key generator only for a key at or above it |
| `KeyedStore.Delete` | src/db/db.js:86 | `delete` removes that key only and leaves the key generator where it was; deleting a missing key changes nothing |
| `KeyedStore.Scan` | src/db/db.js:98-99 | the rows in a key range that pass the filter, each one stored, in strictly ascending key order |
| `KeyedStore.Select` | src/db/db.js:99 | `getAll` returns a row exactly when that record is stored and passes the filter, in ascending key order |
| `KeyedStore.DeleteWhere` | src/db/db.js:198-202 | exactly the records passing the filter are removed; the rest are untouched |
| `Db.Open` | src/db/db.js:13-30 | the upgrade handler creates three empty, valid object stores |
| `Db.GetProjects` | src/db/db.js:45-55 | `getProjects` lists every stored project, each once, in key order |
| `Db.AddProject` | src/db/db.js:57-67 | `addProject` stores the project under a fresh key and returns that key; tasks and journals are untouched |
| `Db.UpdateProject` | src/db/db.js:69-79 | after `updateProject(id, p)` the record at `id` is exactly `p`; other projects, tasks and journals are unchanged, and so is the projects key generator when `id` was stored |
| `Db.DeleteProject` | src/db/db.js:81-91 | `deleteProject` removes only that project and keeps the projects key generator; every task and journal stays |
| `Db.GetTasksByProjectId` | src/db/db.js:93-104 | returns a task exactly when it is stored with `projectId == p`, in key order |
| `Db.AddTask` | src/db/db.js:106-116 | `addTask` stores the task under a fresh key and returns that key |
| `Db.UpdateTask` | src/db/db.js:118-128 | after `updateTask(id, t)` the record at `id` is exactly `t`, so fields missing from `t` are gone; nothing else changes |
| `Db.DeleteTask` | src/db/db.js:130-140 | `deleteTask` removes that task only and keeps the tasks key generator; projects and journals are unchanged |
| `Db.DeleteAllTasksByProjectId` | src/db/db.js:192-209 | removes exactly the tasks of `p`; afterwards the index lists none for `p`, and the other tasks, the tasks key generator, projects and journals are unchanged |
| `Db.GetJournalsByProjectId` | src/db/db.js:142-153 | returns a journal exactly when it is stored with `projectId == p`, in key order |
| `Db.AddJournal` | src/db/db.js:155-165 | `addJournal` stores the entry under a fresh key and returns that key |
| `Db.UpdateJournal` | src/db/db.js:167-177 | after `updateJournal(id, j)` the record at `id` is exactly `j`; other entries, projects and tasks are unchanged, and so is the journals key generator when `id` was stored |
| `Db.DeleteJournal` | src/db/db.js:179-189 | `deleteJournal` removes that entry only and keeps the journals key generator; projects and tasks are unchanged |
| `Db.DeleteProjectOrphans` | src/db/db.js:81-91 | after deleting project `p`, its tasks and journals are still listed under `p` |
| `Records.IsCompleted` | src/components/UpcomingTasks.jsx:28 | a task is completed exactly when its status is "Completed"; "Pending", "In Progress" and a missing status are not |
| `Expansion.IsRecurring` | src/components/UpcomingTasks.jsx:46 | a task without a recurrence does not recur; with one it recurs unless the frequency is exactly "None", so a missing frequency recurs |
| `Expansion.Interval` | src/components/UpcomingTasks.jsx:49 | the interval is never 0: a 0, missing or unparsable interval becomes 1, and every other parsed value is kept, negative ones included |
| `Expansion.StepDays` | src/components/UpcomingTasks.jsx:56-62 | Weekly steps 7 times the interval; Daily and every other frequency step the interval; the step is never 0 |
| `Expansion.At` | src/components/UpcomingTasks.jsx:53 | an occurrence carries the new due date and equals its template in every other field |
| `Expansion.Emit` | src/components/UpcomingTasks.jsx:52-72 | the loop keeps what was already out, pushes the due date first, and without an end date stops once the shared list holds more than 100 items |
| `Expansion.ExpandOne` | src/components/UpcomingTasks.jsx:45-75 | one task appends exactly its group (its reference occurrences) to the shared list |
| `Expansion.ExpandInto` | src/components/UpcomingTasks.jsx:44-77 | the `forEach` never removes or reorders what was already out |
| `Expansion.Expand` | src/components/UpcomingTasks.jsx:43-78 | every output item is one of the input tasks, at its own or at a new due date |
| `Expansion.ExpandIntoOrigin` | src/components/UpcomingTasks.jsx:44-77 | every item appended by the `forEach` comes from one of its tasks |
| `Expansion.Occurrences` | src/components/UpcomingTasks.jsx:52-62 | the reference list of occurrences has exactly the requested length |
| `Expansion.OccurrencesAt` | src/components/UpcomingTasks.jsx:53-62 | the `k`-th occurrence is the template due `k * step` days after the first |
| `Expansion.Count` | src/components/UpcomingTasks.jsx:64-71 | every recurring task yields at least one occurrence |
| `Expansion.EmitShape` | src/components/UpcomingTasks.jsx:52-72 | the emit-then-test loop appends exactly `Count` occurrences spaced `step` apart: the loop equals the closed form |
| `Expansion.GroupOrigin` | src/components/UpcomingTasks.jsx:53-54 | every item of a group is the template, or the template with another, present due date |
| `Expansion.ExpandIntoAppend` | src/components/UpcomingTasks.jsx:45-76 | the tasks are processed in order: one more input task appends one more group |
| `Expansion.ExpandAppend` | src/components/UpcomingTasks.jsx:43-78 | groups keep input order, each sized by how many items were already out |
| `Expansion.NonRecurringUnchanged` | src/components/UpcomingTasks.jsx:46-75 | a task without a recurrence, or with frequency "None", comes out once and unchanged |
| `Expansion.ExpandSingle` | src/components/UpcomingTasks.jsx:43-78 | a single task expands to exactly its group |
| `Expansion.RecurringEmitsDueDateFirst` | src/components/UpcomingTasks.jsx:52-54 | a recurring task always yields its own due date first, even when that date is already past the end date |
| `Expansion.BoundedExpansion` | src/components/UpcomingTasks.jsx:53-66 | with an end date and a positive step the dates are `d0 + k * step` for `k = 0 .. n`, `n` being the largest `k` on or before the end date (inclusive), and just `d0` when it is past the end |
| `Expansion.CountBounded` | src/components/UpcomingTasks.jsx:64-66 | the count with an end date is the number of steps that land on or before it, and at least one |
| `Expansion.UnboundedLone` | src/components/UpcomingTasks.jsx:68-71 | a lone recurring task without an end date yields 101 occurrences, `k * step` days apart |
| `Expansion.UnboundedAfterCap` | src/components/UpcomingTasks.jsx:68-71 | an unbounded task that starts when 100 or more items are out contributes exactly one occurrence |
| `Expansion.BoundedNotCapped` | src/components/UpcomingTasks.jsx:68 | a task with an end date yields the same group however many items are already out |
| `Expansion.OccurrencesIncrease` | src/components/UpcomingTasks.jsx:56-62 | within one group of positive step, due dates strictly increase |
| `Expansion.ScenarioDailyEveryTwo` | src/components/UpcomingTasks.jsx:52-66 | Daily, interval 2, from D to D+4 gives D, D+2, D+4 |
| `Expansion.ScenarioWeeklyInclusiveEnd` | src/components/UpcomingTasks.jsx:58-66 | Weekly from D to D+21 gives D, D+7, D+14 and D+21: the end date counts |
| `Expansion.ScenarioDailyUnbounded` | src/components/UpcomingTasks.jsx:68-71 | Daily with no end date gives 101 occurrences, the last on D+100 |
| `Expansion.ScenarioPastEnd` | src/components/UpcomingTasks.jsx:52-66 | a task due after its own end date still yields that one occurrence |
| `Expansion.ScenarioCustomDefault` | src/components/UpcomingTasks.jsx:49 | "Custom" with no interval steps one day, like Daily with interval 1 |
| `Upcoming.PendingOf` | src/components/UpcomingTasks.jsx:27-31 | a project's rows yield exactly its not-completed tasks, each tagged with the project's name, no more of them than rows, and in the rows' ascending key order |
| `Upcoming.CollectFrom` | src/components/UpcomingTasks.jsx:25-32 | the loop over projects yields exactly the not-completed tasks owned by one of them, tagged with its name; over projects in key order it lists them by project key and then task key |
| `Upcoming.Collect` | src/components/UpcomingTasks.jsx:22-32 | the collected tasks are exactly the stored, not-completed tasks whose project exists, tagged with its name, ordered by project key and then task key; orphaned tasks are not listed |
| `Upcoming.CollectOrderDetermines` | src/components/UpcomingTasks.jsx:25-31 | two lists ordered by project key and then task key that hold the same items are equal |
| `Upcoming.CollectIsUnique` | src/components/UpcomingTasks.jsx:22-32 | any list of the listed tasks in that order is the collected list: each task appears once, and the order the shared cap counts over is fixed |
| `Upcoming.Insert` | src/components/UpcomingTasks.jsx:35 | inserting into a sorted list keeps it sorted and is a permutation of the item plus the list |
| `Upcoming.InsertStable` | src/components/UpcomingTasks.jsx:35 | insertion keeps the order of the items due on each day, the inserted one first |
| `Upcoming.SortByDue` | src/components/UpcomingTasks.jsx:35 | the sort is ascending by due date, a permutation of its input, and stable: items due on one day keep their order |
| `Upcoming.PendingView` | src/components/UpcomingTasks.jsx:19-36 | the view is sorted by due date, shows only not-completed listed tasks at own or generated dates, and keeps the expansion's order within each day |
| `Upcoming.DueDateColor` | src/components/UpcomingTasks.jsx:80-90 | overdue is "error.main", today "warning.main", tomorrow "info.main", anything later or missing "success.main", each as an if-and-only-if |
| `Upcoming.ColorUrgencyMonotone` | src/components/UpcomingTasks.jsx:86-89 | a later due date never gets a more urgent colour |
| `TaskForm.ResetForm` | src/components/TaskForm.jsx:44-53 | a new task starts with empty title and description, no due date, "Normal", "Pending", "None", interval 1 and no end date |
| `TaskForm.Prefill` | src/components/TaskForm.jsx:29-38 | each edit field is the task's value, or its default when that value is missing or falsy: frequency "None", interval 1 and no end date both without a recurrence and for the recurrence's own missing fields; the interval is never 0 |
| `TaskForm.TaskPayload` | src/components/TaskForm.jsx:61-73 | title and description are trimmed; the interval is kept only for "Custom" (else 1); the end date only when the task recurs; a recurrence object is always present |
| `TaskForm.SaveTask` | src/components/TaskForm.jsx:55-80 | save is refused exactly when the untrimmed title or the due date is empty; otherwise an existing id updates and no id adds |
| `TaskForm.ApplySave` | src/components/TaskForm.jsx:75-86 | the dialog closes exactly when the save is accepted and the request succeeds; only then is the task written, and the task table then differs from before only at that task's key (a fresh key when adding) |
| `TaskForm.PrefillDefaultsAreReset` | src/components/TaskForm.jsx:31-53 | the edit defaults of a task with no fields equal the new-task values |
| `TaskForm.WhitespaceTitleStoredEmpty` | src/components/TaskForm.jsx:56-63 | a title of blanks passes the check and is stored as "" |
| `TaskForm.SavedStep` | src/components/TaskForm.jsx:70 | a saved Daily task steps 1 day, Weekly 7 days, and Custom its interval (1 for 0 or `NaN`) |
| `TaskForm.SavedRecurs` | src/components/TaskForm.jsx:68-71 | a saved task recurs in the upcoming view exactly when its frequency is not "None" |
| `TaskForm.PrefillOfPayload` | src/components/TaskForm.jsx:31-38 | reopening a saved payload shows the trimmed, normalised values that were entered |
| `TaskForm.PayloadRoundTrip` | src/components/TaskForm.jsx:61-73 | a saved payload, reopened and rebuilt unchanged, is the same payload |
| `TaskForm.EditRoundTrip` | src/components/TaskForm.jsx:76-77 | editing a saved task and saving it unchanged writes the same record back to the same id |
| `TaskForm.BlankTitleBlocksResave` | src/components/TaskForm.jsx:56-63 | a task saved with a blank title cannot be saved again unchanged |
| `TaskList.ToggleStatus` | src/components/TaskList.jsx:66 | "Completed" becomes "Pending"; every other status, a missing one included, becomes "Completed" |
| `TaskList.ToggleTwice` | src/components/TaskList.jsx:66 | toggling twice returns to the start exactly for "Pending" and "Completed"; anything else ends at "Pending" |
| `TaskList.TogglePayload` | src/components/TaskList.jsx:67 | the toggle's payload carries the new status and no other field |
| `TaskList.HandleToggleStatus` | src/components/TaskList.jsx:64-72 | a successful toggle leaves the task holding exactly the status payload, every other task as it was and the key generator unmoved; a failed one changes nothing |
| `TaskList.ToggleWipesTask` | src/components/TaskList.jsx:67 | after a toggle the task is `{ id, status }`, so it vanishes from every project's task list and from the upcoming view, while other tasks stay |
| `TaskList.PriorityColor` | src/components/TaskList.jsx:129-135 | "High" gives "error", "Normal" gives "warning", anything else "default", each as an if-and-only-if |
| `TaskList.Decoration` | src/components/TaskList.jsx:117 | the title is struck through exactly when the status is "Completed" |
| `TaskList.ToggleFlipsStrikethrough` | src/components/TaskList.jsx:117 | a toggle always flips the strike-through |
| `Reports.CompletedTasks` | src/components/Reports.jsx:30 | keeps exactly the tasks whose status is "Completed", each as often as it occurs in the input |
| `Reports.PendingTasks` | src/components/Reports.jsx:31 | keeps exactly the other tasks, "In Progress" and a missing status included, each as often as it occurs in the input |
| `Reports.CountsPartition` | src/components/Reports.jsx:30-31 | completed plus pending is the number of tasks |
| `Reports.Report` | src/components/Reports.jsx:25-58 | four entries in fixed order: the task count, the number of "Completed" tasks, the number of other tasks (adding up to the count), and the journal count |
| `Reports.ReportShown` | src/components/Reports.jsx:59-72 | no project gives an empty report, a successful request shows that project's report, and a failed one keeps the previous report |
| `ProjectList.NewProjectForm` | src/components/ProjectList.jsx:39-44 | adding starts from empty fields |
| `ProjectList.EditProjectForm` | src/components/ProjectList.jsx:46-51 | editing shows the project's name and description, "" where one is missing |
| `ProjectList.SubmitProject` | src/components/ProjectList.jsx:77-97 | refused exactly when the name is blank; the payload is the trimmed name and description; an edited project updates, otherwise it is added |
| `ProjectList.ApplySubmit` | src/components/ProjectList.jsx:89-103 | a new project's fresh key becomes the selection; an edit keeps it; the project table then differs only at that key; a refusal or failure changes nothing |
| `ProjectList.RequestDeleteProject` | src/components/ProjectList.jsx:53-55 | the dialog opens on the project and nothing else changes |
| `ProjectList.ConfirmDeleteProject` | src/components/ProjectList.jsx:57-71 | the dialog always closes; the projects key generator never moves; a successful delete leaves every other project record as it was and clears the selection exactly when it was the deleted project |
| `ProjectList.CancelDeleteProject` | src/components/ProjectList.jsx:73-75 | the dialog closes and nothing else changes |
| `ProjectList.DeleteOrphans` | src/components/ProjectList.jsx:60 | after a confirmed delete the project's tasks and journals are still indexed under it, and none of its tasks shows in the upcoming view |
| `ProjectList.RequestThenCancel` | src/components/ProjectList.jsx:53-75 | asking and then cancelling restores the state |
| `ProjectList.EditProjectRoundTrip` | src/components/ProjectList.jsx:46-91 | editing a saved project and submitting it unchanged writes the same record back |
| `JournalEditor.Find` | src/components/JournalEditor.jsx:26 | `find` returns the first entry with the id, and nothing exactly when no entry has it |
| `JournalEditor.FetchJournal` | src/components/JournalEditor.jsx:23-35 | the fields become the date and content of the first entry whose id matches; with no match they stay |
| `JournalEditor.OnOpen` | src/components/JournalEditor.jsx:37-44 | when `journalId` (or the project) changes: no id clears the content and keeps the date; an id shows the first stored entry with it; a failed fetch changes nothing |
| `JournalEditor.SaveJournal` | src/components/JournalEditor.jsx:46-63 | refused exactly when the date or the content is empty; the payload is the three values unchanged; an id updates, none adds |
| `JournalEditor.RunSave` | src/components/JournalEditor.jsx:58-70 | on success `onSave` runs and then `onClose`, and the journal table differs only at the saved key; on refusal or failure neither runs and the store is unchanged |
| `JournalEditor.SaveThenFetch` | src/components/JournalEditor.jsx:23-63 | saving an edited entry and opening it again shows exactly what was saved |
| `JournalList.Preview` | src/components/JournalList.jsx:122 | content up to 100 characters shows whole; longer content shows its first 100 characters and "..."; never more than 103 |
| `JournalList.PreviewIdempotent` | src/components/JournalList.jsx:122 | the preview of a preview is the same preview |
| `JournalList.PreviewOnlySeesPrefix` | src/components/JournalList.jsx:122 | long contents that agree on their first 100 characters look the same |
| `JournalList.JournalsShown` | src/components/JournalList.jsx:32-50 | no project shows no entries; otherwise exactly the project's stored entries, each once, by ascending key, or the previous list when the request fails |
| `JournalList.RequestDeleteJournal` | src/components/JournalList.jsx:62-64 | the dialog opens on the entry and the store is untouched |
| `JournalList.ConfirmDeleteJournal` | src/components/JournalList.jsx:66-77 | the dialog always closes; a successful delete removes only that entry, leaving every other journal record and the key generator as they were |
| `JournalList.CancelDeleteJournal` | src/components/JournalList.jsx:79-81 | the dialog closes and the store is untouched |
| `JournalList.ConfirmedDeleteDropsCard` | src/components/JournalList.jsx:66-77 | after a confirmed delete the project's cards are the old ones minus the deleted entry |
| `Confirm.Closed` | src/components/ProjectList.jsx:70 | the resting dialog is closed and names no record |
| `Confirm.Request` | src/components/JournalList.jsx:62-64 | a delete request opens the dialog on that record |

## Left out

- I/O and asynchrony: the open request, database versioning and open errors (only
  the stores the upgrade handler creates are modelled, as `Db.Open`), transactions,
  promises, request error codes, snackbars, loading flags and React re-rendering are not modelled. Each store
  request's outcome is a boolean parameter, and a failed request leaves the state
  as it was. Interleavings of concurrent requests are not modelled.
- JavaScript `Date` mechanics are not modelled: parsing, local-time `setDate`
  against UTC `toISOString`, and daylight-saving shifts. Dates are day numbers and
  one day is one step. The string comparisons of `getDueDateColor` are comparisons of
  day numbers, which matches because fixed-width `YYYY-MM-DD` strings order like
  the dates they name.
- Upcoming.DueDateColor: holds only for years 0000 to 9999. Outside them
  `toISOString` writes a signed six-digit year (`+010000-01-01`), the strings are no
  longer fixed-width, and the source's string comparison no longer follows date
  order. Day numbers, which are unbounded, do follow it.
- The system clock, in `getDueDateColor` and in the journal editor's default date,
  is not read: today's date is a parameter or part of the given editor state.
- `parseInt` is not modelled: intervals are already-parsed optional integers, with
  `None` for `NaN`.
- Expansion.Expand: requires every recurring task to have a due date and a loop
  that returns. For a recurring task whose due date is missing (`undefined`) or
  unparsable, `toISOString` throws a `RangeError`; `fetchAllPendingTasks` catches it
  and leaves the view as it was. (`null` does not throw: it is read as the epoch.)
  A negative interval together with an end date never returns, unless the first
  step already passes the end date. An end date that does not parse makes every
  comparison false, and that loop never returns either. These inputs are excluded,
  not modelled.
- Expansion.Expand: does not model the JavaScript `Date` range of ±8.64e15 ms
  (about ±273,790 years). `Records.Day` is unbounded. A date stepped past that range,
  for instance by 101 steps of a "Custom" interval of 1,000,000 days with no end
  date, is an invalid `Date`, and `toISOString` then throws. The source's view then
  stays as it was, while the model returns all 101 items.
- Expansion.Emit: requires the same termination condition (`Expansion.Halts`): a
  positive step, a step that passes the end date at once, or no end date (the cap
  then ends the loop).
- Upcoming.PendingView: requires every listed task to have a due date. For a task
  without one, the sort comparator returns `NaN` and the resulting order is
  implementation-defined.
- JournalList.Preview: counts characters, not UTF-16 code units. Content outside
  the Basic Multilingual Plane is therefore cut at a different place than
  `substring(0, 100)` would cut it.
- JournalEditor.OnOpen: does not run on every opening of the dialog. The editor stays
  mounted, and its effect runs only when `journalId` or the project changes. "New"
  sets the id to `null`, which is no change when it already was `null`, so the draft
  of a cancelled new entry reappears on the next new entry. The model states what
  the effect does when it runs, not when React runs it.
- Key generator exhaustion (keys beyond 2^53) is not modelled.
- The store calls with a `null` project id (`getAll(IDBKeyRange.only(null))` throws)
  are not modelled. The task and journal lists only fetch when a project is selected.
  `FetchJournal` takes the list the request returned.
- The `inputProps` maximum lengths are not modelled: the browser widget enforces
  them, not the code.
- `src/components/CalendarView.jsx` and `src/App.js` (layout and navigation) are
  not part of this model.

=== FILE: confirm.dfy ===
/** The confirm-delete dialog state shared by the project and journal lists:
    `{ open, projectId }` and `{ open, journalId }`. */
module Confirm {
  import opened Wrappers
  import opened KeyedStore

  /** Whether the dialog shows, and the record it asks about (`null` is `None`). */
  datatype Dialog = Dialog(open: bool, target: Option<Key>)

  /** The resting state `{ open: false, ...: null }`. */
  function Closed(): (d: Dialog)
    ensures !d.open && d.target.None?
  {
    Dialog(false, None)
  }

  /** Clicking a delete button: the dialog opens on that record. */
  function Request(id: Key): (d: Dialog)
    ensures d.open && d.target == Some(id)
  {
    Dialog(true, Some(id))
  }
}

=== FILE: db.dfy ===
/** The storage wrapper `dbWrapper`: one database holding the `projects`, `tasks`
    and `journals` object stores, with `tasks` and `journals` indexed by `projectId`.
    Each operation is a function from the database before to the database after (and
    its result); the asynchronous request and its failure are left to the callers. */
module Db {
  import opened Wrappers
  import opened KeyedStore
  import opened Records

  datatype Store = Store(
    projects: Collection<ProjectData>,
    tasks: Collection<TaskData>,
    journals: Collection<JournalData>)

  predicate Valid(s: Store) {
    KeyedStore.Valid(s.projects) && KeyedStore.Valid(s.tasks) && KeyedStore.Valid(s.journals)
  }

  /** The database as the upgrade handler creates it: three empty object stores. */
  function Open(): (s: Store)
    ensures Valid(s)
    ensures s.projects.rows == map[] && s.tasks.rows == map[] && s.journals.rows == map[]
  {
    Store(Empty(), Empty(), Empty())
  }

  /** The `projectId` index key of a task or journal; a record without one is not in the index. */
  function TaskOwner(t: TaskData): Option<Key> { t.projectId }
  function JournalOwner(j: JournalData): Option<Key> { j.projectId }

  // ---------------------------------------------------------------- projects

  /** `getProjects`: every project, by ascending key. */
  function GetProjects(s: Store): (r: seq<Row<ProjectData>>)
    requires Valid(s)
    ensures forall row :: row in r <==> Holds(s.projects, row)
    ensures Ascending(r)
  {
    Select(s.projects, (p: ProjectData) => true)
  }

  /** `addProject`: stores the project under a fresh key and returns that key. */
  function AddProject(s: Store, p: ProjectData): (r: Option<(Store, Key)>)
    ensures Valid(s) ==> r.Some? && Valid(r.value.0)
    ensures r.Some? ==> r.value.1 !in s.projects.rows
    ensures r.Some? ==> r.value.0.projects.rows == s.projects.rows[r.value.1 := p]
    ensures r.Some? ==> r.value.0.tasks == s.tasks && r.value.0.journals == s.journals
  {
    match Add(s.projects, p)
    case None => None
    case Some((c, k)) => Some((s.(projects := c), k))
  }

  /** `updateProject(id, p)`: `put({ id, ...p })`, a whole-record replace. */
  function UpdateProject(s: Store, id: Key, p: ProjectData): (r: Store)
    ensures Holds(r.projects, Row(id, p))
    ensures forall k | k != id :: (k in r.projects.rows <==> k in s.projects.rows)
                                  && (k in s.projects.rows ==> r.projects.rows[k] == s.projects.rows[k])
    ensures id in s.projects.rows && Valid(s) ==> r.projects.next == s.projects.next
    ensures r.tasks == s.tasks && r.journals == s.journals
    ensures Valid(s) ==> Valid(r)
  {
    s.(projects := Put(s.projects, id, p))
  }

  /** `deleteProject(id)`: removes that project record only; the project's tasks and
      journals stay where they are. */
  function DeleteProject(s: Store, id: Key): (r: Store)
    ensures id !in r.projects.rows
    ensures forall k | k != id :: (k in r.projects.rows <==> k in s.projects.rows)
                                  && (k in s.projects.rows ==> r.projects.rows[k] == s.projects.rows[k])
    ensures r.projects.next == s.projects.next
    ensures r.tasks == s.tasks && r.journals == s.journals
    ensures Valid(s) ==> Valid(r)
  {
    s.(projects := Delete(s.projects, id))
  }

  // ---------------------------------------------------------------- tasks

  /** `getTasksByProjectId(p)`: exactly the tasks whose `projectId` is `p`, by ascending key. */
  function GetTasksByProjectId(s: Store, p: Key): (r: seq<Row<TaskData>>)
    requires Valid(s)
    ensures forall row :: row in r <==> Holds(s.tasks, row) && row.data.projectId == Some(p)
    ensures Ascending(r)
  {
    Select(s.tasks, (t: TaskData) => TaskOwner(t) == Some(p))
  }

  /** `addTask`: stores the task under a fresh key and returns that key. */
  function AddTask(s: Store, t: TaskData): (r: Option<(Store, Key)>)
    ensures Valid(s) ==> r.Some? && Valid(r.value.0)
    ensures r.Some? ==> r.value.1 !in s.tasks.rows
    ensures r.Some? ==> r.value.0.tasks.rows == s.tasks.rows[r.value.1 := t]
    ensures r.Some? ==> r.value.0.projects == s.projects && r.value.0.journals == s.journals
  {
    match Add(s.tasks, t)
    case None => None
    case Some((c, k)) => Some((s.(tasks := c), k))
  }

  /** `updateTask(id, t)`: `put({ id, ...t })`; fields absent from `t` are gone afterwards. */
  function UpdateTask(s: Store, id: Key, t: TaskData): (r: Store)
    ensures Holds(r.tasks, Row(id, t))
    ensures forall k | k != id :: (k in r.tasks.rows <==> k in s.tasks.rows)
                                  && (k in s.tasks.rows ==> r.tasks.rows[k] == s.tasks.rows[k])
    ensures id in s.tasks.rows && Valid(s) ==> r.tasks.next == s.tasks.next
    ensures r.projects == s.projects && r.journals == s.journals
    ensures Valid(s) ==> Valid(r)
  {
    s.(tasks := Put(s.tasks, id, t))
  }

  /** `deleteTask(id)`. */
  function DeleteTask(s: Store, id: Key): (r: Store)
    ensures id !in r.tasks.rows
    ensures forall k | k != id :: (k in r.tasks.rows <==> k in s.tasks.rows)
                                  && (k in s.tasks.rows ==> r.tasks.rows[k] == s.tasks.rows[k])
    ensures r.tasks.next == s.tasks.next
    ensures r.projects == s.projects && r.journals == s.journals
    ensures Valid(s) ==> Valid(r)
  {
    s.(tasks := Delete(s.tasks, id))
  }

  /** `deleteAllTasksByProjectId(p)`: one read-write transaction deleting every key the
      `projectId` index lists for `p`; it commits as a whole or not at all. */
  function DeleteAllTasksByProjectId(s: Store, p: Key): (r: Store)
    ensures forall k :: k in r.tasks.rows <==> k in s.tasks.rows && s.tasks.rows[k].projectId != Some(p)
    ensures forall k | k in r.tasks.rows :: r.tasks.rows[k] == s.tasks.rows[k]
    ensures r.tasks.next == s.tasks.next
    ensures r.projects == s.projects && r.journals == s.journals
    ensures Valid(s) ==> Valid(r) && GetTasksByProjectId(r, p) == []
  {
    var r := s.(tasks := DeleteWhere(s.tasks, (t: TaskData) => TaskOwner(t) == Some(p)));
    r
  }

  // ---------------------------------------------------------------- journals

  /** `getJournalsByProjectId(p)`: exactly the journals whose `projectId` is `p`, by ascending key. */
  function GetJournalsByProjectId(s: Store, p: Key): (r: seq<Row<JournalData>>)
    requires Valid(s)
    ensures forall row :: row in r <==> Holds(s.journals, row) && row.data.projectId == Some(p)
    ensures Ascending(r)
  {
    Select(s.journals, (j: JournalData) => JournalOwner(j) == Some(p))
  }

  /** `addJournal`: stores the entry under a fresh key and returns that key. */
  function AddJournal(s: Store, j: JournalData): (r: Option<(Store, Key)>)
    ensures Valid(s) ==> r.Some? && Valid(r.value.0)
    ensures r.Some? ==> r.value.1 !in s.journals.rows
    ensures r.Some? ==> r.value.0.journals.rows == s.journals.rows[r.value.1 := j]
    ensures r.Some? ==> r.value.0.projects == s.projects && r.value.0.tasks == s.tasks
  {
    match Add(s.journals, j)
    case None => None
    case Some((c, k)) => Some((s.(journals := c), k))
  }

  /** `updateJournal(id, j)`: `put({ id, ...j })`. */
  function UpdateJournal(s: Store, id: Key, j: JournalData): (r: Store)
    ensures Holds(r.journals, Row(id, j))
    ensures forall k | k != id :: (k in r.journals.rows <==> k in s.journals.rows)
                                  && (k in s.journals.rows ==> r.journals.rows[k] == s.journals.rows[k])
    ensures id in s.journals.rows && Valid(s) ==> r.journals.next == s.journals.next
    ensures r.projects == s.projects && r.tasks == s.tasks
    ensures Valid(s) ==> Valid(r)
  {
    s.(journals := Put(s.journals, id, j))
  }

  /** `deleteJournal(id)`. */
  function DeleteJournal(s: Store, id: Key): (r: Store)
    ensures id !in r.journals.rows
    ensures forall k | k != id :: (k in r.journals.rows <==> k in s.journals.rows)
                                  && (k in s.journals.rows ==> r.journals.rows[k] == s.journals.rows[k])
    ensures r.journals.next == s.journals.next
    ensures r.projects == s.projects && r.tasks == s.tasks
    ensures Valid(s) ==> Valid(r)
  {
    s.(journals := Delete(s.journals, id))
  }

  // ---------------------------------------------------------------- consequences

  /** After `deleteProject(p)` the project's tasks and journals are still listed under
      `p`: nothing on the delete path removes them. */
  lemma DeleteProjectOrphans(s: Store, p: Key)
    requires Valid(s)
    ensures GetTasksByProjectId(DeleteProject(s, p), p) == GetTasksByProjectId(s, p)
    ensures GetJournalsByProjectId(DeleteProject(s, p), p) == GetJournalsByProjectId(s, p)
    ensures p !in DeleteProject(s, p).projects.rows
  {
  }
}

=== FILE: expansion.dfy ===
/** `expandRecurringTasks` of the upcoming-tasks view: every task that recurs is
    replaced by its dated occurrences, all pushed to one shared list. */
module Expansion {
  import opened Wrappers
  import opened KeyedStore
  import opened Records
  import opened Js

  /** A task as the view handles it: the stored row plus the `projectName` it is tagged with. */
  datatype TaskView = TaskView(id: Key, data: TaskData, projectName: Option<string>)

  /** Unbounded recurrences stop once the shared output holds more than this many items. */
  const Cap: nat := 100

  // ---------------------------------------------------------------- recurrence rule

  /** A task recurs when it has a `recurrence` whose frequency is not "None";
      a missing frequency counts as recurring. */
  predicate IsRecurring(t: TaskView): (b: bool)
    ensures t.data.recurrence.None? ==> !b
    ensures t.data.recurrence.Some? && t.data.recurrence.value.frequency.None? ==> b
    ensures t.data.recurrence.Some? && t.data.recurrence.value.frequency == Some(NoRecurrence) ==> !b
    ensures (t.data.recurrence.Some? && t.data.recurrence.value.frequency.Some?
             && t.data.recurrence.value.frequency.value != "None") ==> b
  {
    t.data.recurrence.Some? && t.data.recurrence.value.frequency != Some(NoRecurrence)
  }

  /** `parseInt(interval, 10) || 1`: a zero, missing or unparsable interval becomes 1;
      a negative one is kept. */
  function Interval(rule: Recurrence): (r: int)
    ensures r != 0
    ensures r == 1 <== rule.interval.None? || rule.interval.value == 0
    ensures rule.interval.Some? && rule.interval.value != 0 ==> r == rule.interval.value
  {
    OrInt(rule.interval, 1)
  }

  /** Days between two occurrences: Weekly steps `7 * interval`, Daily and every other
      frequency step `interval`. */
  function StepDays(rule: Recurrence): (r: int)
    ensures r != 0
    ensures rule.frequency == Some("Weekly") ==> r == 7 * Interval(rule)
    ensures rule.frequency != Some("Weekly") ==> r == Interval(rule)
  {
    var interval := Interval(rule);
    if rule.frequency == Some("Daily") then interval
    else if rule.frequency == Some("Weekly") then 7 * interval
    else interval
  }

  /** The task with its `dueDate` replaced: `{ ...task, dueDate }`. */
  function At(t: TaskView, d: Day): (r: TaskView)
    ensures r.data.dueDate == Some(d)
    ensures SameExceptDue(r, t)
  {
    t.(data := t.data.(dueDate := Some(d)))
  }

  /** `o` is `t` in every field but, perhaps, `dueDate`. */
  predicate SameExceptDue(o: TaskView, t: TaskView) {
    o.(data := o.data.(dueDate := t.data.dueDate)) == t
  }

  /** The emit-then-test loop returns: it always does without an end date (the cap
      stops it) and with a positive step; with a negative step and an end date it
      returns only if the first step already passes the end date. */
  predicate Halts(step: int, cur: Day, end: Option<Day>) {
    step > 0 || end.None? || cur + step > end.value
  }

  /** The input a task must meet for the expansion to return: a recurring task has a
      due date, and its loop halts. */
  predicate Expandable(t: TaskView) {
    IsRecurring(t) ==>
      t.data.dueDate.Some? && Halts(StepDays(t.data.recurrence.value), t.data.dueDate.value, t.data.recurrence.value.endDate)
  }

  // ---------------------------------------------------------------- the loop

  /** The `while (true)` loop of one recurring task, appending to the shared list `out`:
      push the occurrence at `cur`, advance by `step`, then stop when past the end date
      or, without an end date, when the shared list is longer than `Cap`. */
  function Emit(out: seq<TaskView>, t: TaskView, cur: Day, step: int, end: Option<Day>): (r: seq<TaskView>)
    requires Halts(step, cur, end)
    ensures |r| > |out| && r[..|out|] == out && r[|out|] == At(t, cur)
    ensures end.None? ==> |r| == if |out| >= Cap then |out| + 1 else Cap + 1
    decreases if end.Some? then end.value - cur + 1 else 0, Cap + 1 - |out|
  {
    var out' := out + [At(t, cur)];
    var next := cur + step;
    if end.Some? then
      if next > end.value then out' else Emit(out', t, next, step, end)
    else
      if |out'| > Cap then out' else Emit(out', t, next, step, end)
  }

  /** One `forEach` step: a recurring task runs the loop from its due date, any other
      task is pushed as it is. */
  function ExpandOne(out: seq<TaskView>, t: TaskView): (r: seq<TaskView>)
    requires Expandable(t)
    ensures r == out + Group(|out|, t)
  {
    if IsRecurring(t) then
      var rule := t.data.recurrence.value;
      EmitShape(out, t, t.data.dueDate.value, StepDays(rule), rule.endDate);
      Emit(out, t, t.data.dueDate.value, StepDays(rule), rule.endDate)
    else
      out + [t]
  }

  /** The `forEach` over the tasks, all pushing to one shared list. */
  function ExpandInto(out: seq<TaskView>, ts: seq<TaskView>): (r: seq<TaskView>)
    requires forall i | 0 <= i < |ts| :: Expandable(ts[i])
    ensures |r| >= |out| && r[..|out|] == out
    decreases |ts|
  {
    if ts == [] then out
    else
      var out' := ExpandOne(out, ts[0]);
      var r := ExpandInto(out', ts[1..]);
      assert r[..|out|] == r[..|out'|][..|out|];
      r
  }

  /** `o` is one of the tasks `ts`, perhaps moved to another (present) due date. */
  predicate FromTasks(o: TaskView, ts: seq<TaskView>) {
    exists t | t in ts :: SameExceptDue(o, t) && (o.data.dueDate.Some? || o == t)
  }

  /** `expandRecurringTasks(tasks)`: every item it returns is one of the tasks, at its
      own or at a new due date. */
  function Expand(ts: seq<TaskView>): (r: seq<TaskView>)
    requires forall i | 0 <= i < |ts| :: Expandable(ts[i])
    ensures forall o | o in r :: FromTasks(o, ts)
  {
    ExpandIntoOrigin([], ts);
    ExpandInto([], ts)
  }

  lemma {:induction false} ExpandIntoOrigin(out: seq<TaskView>, ts: seq<TaskView>)
    requires forall i | 0 <= i < |ts| :: Expandable(ts[i])
    ensures forall i | |out| <= i < |ExpandInto(out, ts)| :: FromTasks(ExpandInto(out, ts)[i], ts)
    decreases |ts|
  {
    if ts != [] {
      var out' := ExpandOne(out, ts[0]);
      var r := ExpandInto(out', ts[1..]);
      ExpandIntoOrigin(out', ts[1..]);
      GroupOrigin(|out|, ts[0]);
      forall i | |out| <= i < |r| ensures FromTasks(r[i], ts) {
        if i < |out'| {
          assert r[i] == r[..|out'|][i] == out'[i];
          assert out'[i] == Group(|out|, ts[0])[i - |out|];
          assert ts[0] in ts;
        } else {
          assert FromTasks(r[i], ts[1..]);
          var t :| t in ts[1..] && SameExceptDue(r[i], t) && (r[i].data.dueDate.Some? || r[i] == t);
          assert t in ts;
        }
      }
    }
  }

  // ---------------------------------------------------------------- reference definition

  /** `n` occurrences of `t` starting at `d`, `step` days apart. */
  function Occurrences(t: TaskView, d: Day, step: int, n: nat): (r: seq<TaskView>)
    ensures |r| == n
    decreases n
  {
    if n == 0 then [] else [At(t, d)] + Occurrences(t, d + step, step, n - 1)
  }

  /** The `k`-th occurrence falls `k * step` days after the first. */
  lemma {:induction false} OccurrencesAt(t: TaskView, d: Day, step: int, n: nat)
    ensures forall k | 0 <= k < n :: Occurrences(t, d, step, n)[k] == At(t, d + k * step)
    decreases n
  {
    if n > 0 {
      var r := Occurrences(t, d, step, n);
      OccurrencesAt(t, d + step, step, n - 1);
      forall k | 1 <= k < n ensures r[k] == At(t, d + k * step) {
        assert r[k] == Occurrences(t, d + step, step, n - 1)[k - 1];
        assert d + step + (k - 1) * step == d + k * step;
      }
    }
  }

  /** How many occurrences the loop emits from `cur` when the shared list already
      holds `m` items: up to the last date on or before the end date (at least one),
      or, without an end date, until the list holds `Cap + 1` items (at least one). */
  function Count(m: nat, cur: Day, step: int, end: Option<Day>): (n: nat)
    ensures n >= 1
  {
    if end.Some? then
      if step > 0 && cur <= end.value then (end.value - cur) / step + 1 else 1
    else
      if m >= Cap then 1 else Cap + 1 - m
  }

  /** The items one task contributes when the shared list already holds `m` items. */
  function Group(m: nat, t: TaskView): (g: seq<TaskView>)
    requires Expandable(t)
  {
    if IsRecurring(t) then
      var rule := t.data.recurrence.value;
      Occurrences(t, t.data.dueDate.value, StepDays(rule), Count(m, t.data.dueDate.value, StepDays(rule), rule.endDate))
    else [t]
  }

  lemma MulAtLeast(b: int, k: int)
    requires b > 0 && k >= 1
    ensures b * k >= b
  {
    if k > 1 {
      MulAtLeast(b, k - 1);
      assert b * k == b * (k - 1) + b;
    }
  }

  /** Euclidean division is determined by quotient and remainder. */
  lemma DivUnique(a: int, b: int, q: int, r: int)
    requires b > 0 && 0 <= r < b && a == b * q + r
    ensures a / b == q
  {
    var q0, r0 := a / b, a % b;
    assert a == b * q0 + r0;
    if q > q0 {
      MulAtLeast(b, q - q0);
    } else if q < q0 {
      MulAtLeast(b, q0 - q);
    }
  }

  lemma DivStep(a: int, b: int)
    requires b > 0 && a >= b
    ensures a / b == (a - b) / b + 1
  {
    var q, r := (a - b) / b, (a - b) % b;
    assert a - b == b * q + r;
    assert a == b * (q + 1) + r;
    DivUnique(a, b, q + 1, r);
  }

  /** When the loop goes on from `cur`, it emits one more than it does from the next date. */
  lemma CountNext(m: nat, cur: Day, step: int, end: Option<Day>)
    requires Halts(step, cur, end)
    requires end.Some? ==> cur + step <= end.value
    requires end.None? ==> m + 1 <= Cap
    ensures Count(m, cur, step, end) == Count(m + 1, cur + step, step, end) + 1
  {
    if end.Some? {
      DivStep(end.value - cur, step);
    }
  }

  /** When the loop stops right after `cur`, it emits exactly one occurrence. */
  lemma CountLast(m: nat, cur: Day, step: int, end: Option<Day>)
    requires end.Some? ==> cur + step > end.value
    requires end.None? ==> m + 1 > Cap
    ensures Count(m, cur, step, end) == 1
  {
    if end.Some? && step > 0 && cur <= end.value {
      assert 0 <= end.value - cur < step;
    }
  }

  /** The last round of the loop: one push, then the stop test succeeds. */
  lemma EmitLast(out: seq<TaskView>, t: TaskView, cur: Day, step: int, end: Option<Day>)
    requires Halts(step, cur, end)
    requires end.Some? ==> cur + step > end.value
    requires end.None? ==> |out| + 1 > Cap
    ensures Emit(out, t, cur, step, end) == out + Occurrences(t, cur, step, Count(|out|, cur, step, end))
  {
    CountLast(|out|, cur, step, end);
    assert Occurrences(t, cur, step, 1) == [At(t, cur)];
  }

  /** A round that goes on: one push, then `n - 1` more from the next date. */
  lemma EmitMore(out: seq<TaskView>, t: TaskView, cur: Day, step: int, end: Option<Day>, n: nat)
    requires Halts(step, cur, end)
    requires end.Some? ==> cur + step <= end.value
    requires end.None? ==> |out| + 1 <= Cap
    requires n >= 1
    requires Emit(out + [At(t, cur)], t, cur + step, step, end)
             == (out + [At(t, cur)]) + Occurrences(t, cur + step, step, n - 1)
    ensures Emit(out, t, cur, step, end) == out + Occurrences(t, cur, step, n)
  {
    EmitUnfold(out, t, cur, step, end);
    OccurrencesCons(t, cur, step, n);
    AppendAssoc(out, [At(t, cur)], Occurrences(t, cur + step, step, n - 1));
  }

  /** A round of the loop that does not stop hands the longer list to the next round. */
  lemma EmitUnfold(out: seq<TaskView>, t: TaskView, cur: Day, step: int, end: Option<Day>)
    requires Halts(step, cur, end)
    requires end.Some? ==> cur + step <= end.value
    requires end.None? ==> |out| + 1 <= Cap
    ensures Emit(out, t, cur, step, end) == Emit(out + [At(t, cur)], t, cur + step, step, end)
  {
  }

  lemma AppendAssoc<T>(a: seq<T>, b: seq<T>, c: seq<T>)
    ensures (a + b) + c == a + (b + c)
  {
  }

  /** The first occurrence, then the rest from the next date. */
  lemma OccurrencesCons(t: TaskView, d: Day, step: int, n: nat)
    requires n >= 1
    ensures Occurrences(t, d, step, n) == [At(t, d)] + Occurrences(t, d + step, step, n - 1)
  {
  }

  /** The loop emits exactly `Count` occurrences, `step` days apart, from `cur`. */
  lemma {:induction false} EmitShape(out: seq<TaskView>, t: TaskView, cur: Day, step: int, end: Option<Day>)
    requires Halts(step, cur, end)
    ensures Emit(out, t, cur, step, end) == out + Occurrences(t, cur, step, Count(|out|, cur, step, end))
    decreases if end.Some? then end.value - cur + 1 else 0, Cap + 1 - |out|
  {
    if (end.Some? && cur + step > end.value) || (end.None? && |out| + 1 > Cap) {
      EmitLast(out, t, cur, step, end);
    } else {
      var out' := out + [At(t, cur)];
      EmitShape(out', t, cur + step, step, end);
      CountNext(|out|, cur, step, end);
      assert |out'| == |out| + 1;
      EmitMore(out, t, cur, step, end, Count(|out|, cur, step, end));
    }
  }

  /** Every item of a group is the task, or the task at another due date. */
  lemma GroupOrigin(m: nat, t: TaskView)
    requires Expandable(t)
    ensures forall o | o in Group(m, t) :: SameExceptDue(o, t) && (o.data.dueDate.Some? || o == t)
  {
    if IsRecurring(t) {
      var rule := t.data.recurrence.value;
      var d, step := t.data.dueDate.value, StepDays(rule);
      OccurrencesAt(t, d, step, Count(m, d, step, rule.endDate));
    }
  }

  // ---------------------------------------------------------------- properties of the expansion

  /** The tasks of a list are expanded in order: appending a task appends its group. */
  lemma {:induction false} ExpandIntoAppend(out: seq<TaskView>, ts: seq<TaskView>, t: TaskView)
    requires forall i | 0 <= i < |ts| :: Expandable(ts[i])
    requires Expandable(t)
    ensures forall i | 0 <= i < |ts + [t]| :: Expandable((ts + [t])[i])
    ensures ExpandInto(out, ts + [t]) == ExpandOne(ExpandInto(out, ts), t)
    decreases |ts|
  {
    assert forall i | 0 <= i < |ts + [t]| :: Expandable((ts + [t])[i]) by {
      forall i | 0 <= i < |ts + [t]| ensures Expandable((ts + [t])[i]) {
        if i < |ts| { assert (ts + [t])[i] == ts[i]; }
      }
    }
    if ts != [] {
      assert (ts + [t])[1..] == ts[1..] + [t];
      ExpandIntoAppend(ExpandOne(out, ts[0]), ts[1..], t);
    }
  }

  /** Groups keep the input order: expanding `ts + [t]` is expanding `ts`, then the
      group of `t`, sized by how many items were already out. */
  lemma ExpandAppend(ts: seq<TaskView>, t: TaskView)
    requires forall i | 0 <= i < |ts| :: Expandable(ts[i])
    requires Expandable(t)
    ensures forall i | 0 <= i < |ts + [t]| :: Expandable((ts + [t])[i])
    ensures Expand(ts + [t]) == Expand(ts) + Group(|Expand(ts)|, t)
  {
    ExpandIntoAppend([], ts, t);
  }

  /** A task that does not recur comes out alone and unchanged. */
  lemma NonRecurringUnchanged(t: TaskView)
    requires !IsRecurring(t)
    ensures Expandable(t) && Expand([t]) == [t]
  {
    ExpandSingle(t);
  }

  /** Expanding a single task yields exactly its group. */
  lemma ExpandSingle(t: TaskView)
    requires Expandable(t)
    ensures Expand([t]) == Group(0, t)
  {
    assert [t][1..] == [];
    assert ExpandInto([], [t]) == ExpandInto(ExpandOne([], t), []);
  }

  /** A recurring task always yields its own due date first, even when that date is
      already past the end date: the loop pushes before it tests. */
  lemma RecurringEmitsDueDateFirst(t: TaskView)
    requires IsRecurring(t) && Expandable(t)
    ensures |Expand([t])| >= 1 && Expand([t])[0] == At(t, t.data.dueDate.value)
  {
    ExpandSingle(t);
    var rule := t.data.recurrence.value;
    var d, step := t.data.dueDate.value, StepDays(rule);
    OccurrencesCons(t, d, step, Count(0, d, step, rule.endDate));
  }

  /** With an end date and a positive step the occurrences are `d0 + k * step` for
      `k = 0 .. n`, where `n` is the largest `k` with `d0 + k * step <= end` (the end
      date is inclusive), or `n = 0` when `d0` is already past the end date. */
  lemma BoundedExpansion(t: TaskView)
    requires IsRecurring(t) && Expandable(t)
    requires t.data.recurrence.value.endDate.Some? && StepDays(t.data.recurrence.value) > 0
    ensures var r := Expand([t]);
            var d0, step, end := t.data.dueDate.value, StepDays(t.data.recurrence.value), t.data.recurrence.value.endDate.value;
            && |r| >= 1
            && (forall k | 0 <= k < |r| :: r[k] == At(t, d0 + k * step))
            && (d0 <= end ==> d0 + (|r| - 1) * step <= end)
            && d0 + |r| * step > end
            && (d0 > end ==> |r| == 1)
  {
    ExpandSingle(t);
    var rule := t.data.recurrence.value;
    var d, step := t.data.dueDate.value, StepDays(rule);
    var n := Count(0, d, step, rule.endDate);
    assert Expand([t]) == Occurrences(t, d, step, n);
    OccurrencesAt(t, d, step, n);
    CountBounded(0, d, step, rule.endDate.value);
  }

  /** With an end date and a positive step, `Count` is the number of dates
      `cur + k * step` on or before the end date, and at least one. */
  lemma CountBounded(m: nat, cur: Day, step: int, end: Day)
    requires step > 0
    ensures var n := Count(m, cur, step, Some(end));
            && (cur <= end ==> cur + (n - 1) * step <= end)
            && cur + n * step > end
            && (cur > end ==> n == 1)
  {
    var n := Count(m, cur, step, Some(end));
    if cur <= end {
      var q, r := (end - cur) / step, (end - cur) % step;
      assert end - cur == step * q + r;
      assert n == q + 1;
      assert (n - 1) * step == step * q;
      assert n * step == step * q + step;
    }
  }

  /** Without an end date a lone recurring task yields `Cap + 1` occurrences (101):
      the loop stops only after the push that makes the list longer than `Cap`. */
  lemma UnboundedLone(t: TaskView)
    requires IsRecurring(t) && Expandable(t) && t.data.recurrence.value.endDate.None?
    ensures |Expand([t])| == Cap + 1 == 101
    ensures forall k | 0 <= k < |Expand([t])| ::
              Expand([t])[k] == At(t, t.data.dueDate.value + k * StepDays(t.data.recurrence.value))
  {
    ExpandSingle(t);
    var rule := t.data.recurrence.value;
    var d, step := t.data.dueDate.value, StepDays(rule);
    var n := Count(0, d, step, rule.endDate);
    assert n == Cap + 1;
    var e := Expand([t]);
    assert e == Occurrences(t, d, step, n);
    OccurrencesAt(t, d, step, n);
    forall k | 0 <= k < |e| ensures e[k] == At(t, d + k * step) {
      assert e[k] == Occurrences(t, d, step, n)[k];
    }
  }

  /** The cap counts the shared list: an unbounded task that starts when `Cap` or more
      items are already out contributes exactly one occurrence. */
  lemma UnboundedAfterCap(out: seq<TaskView>, t: TaskView)
    requires IsRecurring(t) && Expandable(t) && t.data.recurrence.value.endDate.None?
    requires |out| >= Cap
    ensures ExpandOne(out, t) == out + [At(t, t.data.dueDate.value)]
  {
  }

  /** A task with an end date is never capped: its group does not depend on how many
      items are already out. */
  lemma BoundedNotCapped(m1: nat, m2: nat, t: TaskView)
    requires Expandable(t) && IsRecurring(t) && t.data.recurrence.value.endDate.Some?
    ensures Group(m1, t) == Group(m2, t)
  {
  }

  /** Within one group of a positive step, due dates strictly increase. */
  lemma OccurrencesIncrease(t: TaskView, d: Day, step: int, n: nat)
    requires step > 0
    ensures forall i, j | 0 <= i < j < n ::
              var a, b := Occurrences(t, d, step, n)[i].data.dueDate, Occurrences(t, d, step, n)[j].data.dueDate;
              a.Some? && b.Some? && a.value < b.value
  {
    var r := Occurrences(t, d, step, n);
    OccurrencesAt(t, d, step, n);
    forall i, j | 0 <= i < j < n
      ensures r[i].data.dueDate.value < r[j].data.dueDate.value
    {
      MulAtLeast(step, j - i);
      assert step * (j - i) == j * step - i * step;
    }
  }

  // ---------------------------------------------------------------- worked examples

  /** A recurring task template due on `due`, with only the fields the expansion reads. */
  function Template(due: Day, frequency: string, interval: Option<int>, end: Option<Day>): TaskView {
    TaskView(1, TaskData(None, None, None, Some(due), None, None, Some(Recurrence(Some(frequency), interval, end))), None)
  }

  /** Daily every 2 days from D to D+4: occurrences on D, D+2 and D+4. */
  lemma ScenarioDailyEveryTwo(d: Day)
    ensures var t := Template(d, "Daily", Some(2), Some(d + 4));
            Expand([t]) == [At(t, d), At(t, d + 2), At(t, d + 4)]
  {
    var t := Template(d, "Daily", Some(2), Some(d + 4));
    BoundedExpansion(t);
    var r := Expand([t]);
    assert |r| == 3;
  }

  /** Weekly from D to D+21: occurrences on D, D+7, D+14 and D+21 (the end date counts). */
  lemma ScenarioWeeklyInclusiveEnd(d: Day)
    ensures var t := Template(d, "Weekly", Some(1), Some(d + 21));
            Expand([t]) == [At(t, d), At(t, d + 7), At(t, d + 14), At(t, d + 21)]
  {
    var t := Template(d, "Weekly", Some(1), Some(d + 21));
    BoundedExpansion(t);
    var r := Expand([t]);
    assert |r| == 4;
  }

  /** Daily with no end date: 101 occurrences, one past the cap, on D .. D+100. */
  lemma ScenarioDailyUnbounded(d: Day)
    ensures var t := Template(d, "Daily", Some(1), None);
            |Expand([t])| == 101 && Expand([t])[100] == At(t, d + 100)
  {
    var t := Template(d, "Daily", Some(1), None);
    UnboundedLone(t);
  }

  /** A task due after its own end date still yields that one occurrence. */
  lemma ScenarioPastEnd(d: Day)
    ensures var t := Template(d, "Daily", Some(1), Some(d - 1));
            Expand([t]) == [At(t, d)]
  {
    var t := Template(d, "Daily", Some(1), Some(d - 1));
    BoundedExpansion(t);
  }

  /** "Custom" with no interval steps like "Daily" with interval 1. */
  lemma ScenarioCustomDefault(d: Day, end: Option<Day>)
    ensures StepDays(Template(d, "Custom", None, end).data.recurrence.value) == 1
    ensures StepDays(Template(d, "Daily", Some(1), end).data.recurrence.value) == 1
  {
  }
}

=== FILE: journal_editor.dfy ===
/** The journal dialog (`JournalEditor`): loading the entry being edited, and
    `handleSave`'s validation, payload, choice between adding and updating, and the
    callbacks it runs. */
module JournalEditor {
  import opened Wrappers
  import opened KeyedStore
  import opened Records
  import opened Js
  import Db

  /** The two fields: the date (`None` when the field is empty) and the content (`None`
      when it was loaded from an entry without one). */
  datatype Editor = Editor(date: Option<Day>, content: Option<string>)

  /** `journals.find((j) => j.id === journalId)`: the first entry with that id, if any. */
  function Find(journals: seq<Row<JournalData>>, journalId: Option<Key>): (r: Option<Row<JournalData>>)
    ensures r.Some? ==> r.value in journals && journalId == Some(r.value.id)
    ensures r.None? <==> forall i | 0 <= i < |journals| :: journalId != Some(journals[i].id)
    ensures r.Some? ==> exists i | 0 <= i < |journals| :: journals[i] == r.value
                          && forall j | 0 <= j < i :: journalId != Some(journals[j].id)
  {
    if journals == [] then None
    else if journalId == Some(journals[0].id) then Some(journals[0])
    else
      var r := Find(journals[1..], journalId);
      assert r.Some? ==> exists i | 0 <= i < |journals| :: journals[i] == r.value
                           && forall j | 0 <= j < i :: journalId != Some(journals[j].id) by {
        if r.Some? {
          var i :| 0 <= i < |journals[1..]| && journals[1..][i] == r.value
                   && forall j | 0 <= j < i :: journalId != Some(journals[1..][j].id);
          assert journals[i + 1] == r.value;
          assert forall j | 0 <= j < i + 1 :: journalId != Some(journals[j].id) by {
            forall j | 0 <= j < i + 1 ensures journalId != Some(journals[j].id) {
              if j > 0 { assert journals[j] == journals[1..][j - 1]; }
            }
          }
        }
      }
      r
  }

  /** `fetchJournal` given the project's entries: the matching entry's date and content,
      or the fields as they were when no entry matches. */
  function FetchJournal(e: Editor, journals: seq<Row<JournalData>>, journalId: Option<Key>): (r: Editor)
    ensures (forall i | 0 <= i < |journals| :: journalId != Some(journals[i].id)) ==> r == e
    ensures Find(journals, journalId).Some? ==>
              r == Editor(Find(journals, journalId).value.data.date, Find(journals, journalId).value.data.content)
    ensures r != e ==> exists row | row in journals :: journalId == Some(row.id) && Editor(row.data.date, row.data.content) == r
  {
    match Find(journals, journalId)
    case None => e
    case Some(row) => Editor(row.data.date, row.data.content)
  }

  /** The effect, run when the editor mounts and whenever `journalId` (or the project)
      changes, not on every opening of the dialog: with a `journalId` the entry is looked
      up in `fetched`, the project's entries (`None` when the request failed, which
      leaves the fields alone); without one the content is cleared and the date kept. */
  function OnOpen(e: Editor, journalId: Option<Key>, fetched: Option<seq<Row<JournalData>>>): (r: Editor)
    ensures journalId.None? ==> r == Editor(e.date, Some(""))
    ensures journalId.Some? && fetched.None? ==> r == e
    ensures journalId.Some? && fetched.Some? ==> r == FetchJournal(e, fetched.value, journalId)
  {
    if journalId.None? then e.(content := Some(""))
    else if fetched.None? then e
    else FetchJournal(e, fetched.value, journalId)
  }

  /** What `handleSave` does: warn and stop, or write the payload. */
  datatype SaveAction = Reject(message: string) | AddJournal(data: JournalData) | UpdateJournal(id: Key, data: JournalData)

  /** `handleSave` up to the store call: refused when the date or the content is empty
      (content of blanks passes, it is not trimmed); the payload is the three values
      as they are. */
  function SaveJournal(e: Editor, journalId: Option<Key>, projectId: Option<Key>): (a: SaveAction)
    ensures a.Reject? <==> e.date.None? || !Truthy(e.content)
    ensures a.Reject? ==> a.message == "Please fill in all fields."
    ensures !a.Reject? ==> a.data == JournalData(projectId, e.date, e.content)
    ensures a.UpdateJournal? <==> !a.Reject? && journalId.Some?
    ensures a.UpdateJournal? ==> journalId == Some(a.id)
  {
    if e.date.None? || !Truthy(e.content) then Reject("Please fill in all fields.")
    else
      var data := JournalData(projectId, e.date, e.content);
      match journalId
      case Some(id) => UpdateJournal(id, data)
      case None => AddJournal(data)
  }

  /** The callbacks `handleSave` runs, in order. */
  datatype Callback = OnSave | OnClose

  /** The store after `handleSave` and the callbacks it ran. `ok` is the outcome of the
      store request: on success `onSave` then `onClose`, otherwise neither and the
      store as it was. */
  function RunSave(s: Db.Store, a: SaveAction, ok: bool): (r: (Db.Store, seq<Callback>))
    requires Db.Valid(s)
    ensures Db.Valid(r.0)
    ensures r.1 == [OnSave, OnClose] <==> ok && !a.Reject?
    ensures r.1 != [OnSave, OnClose] ==> r.1 == [] && r.0 == s
    ensures ok && a.UpdateJournal? ==> Holds(r.0.journals, Row(a.id, a.data))
    ensures ok && a.UpdateJournal? ==> r.0.journals.rows == s.journals.rows[a.id := a.data]
    ensures ok && a.AddJournal? ==> exists k :: k !in s.journals.rows && Holds(r.0.journals, Row(k, a.data))
                                                && r.0.journals.rows == s.journals.rows[k := a.data]
    ensures r.0.projects == s.projects && r.0.tasks == s.tasks
  {
    if !ok then (s, [])
    else match a
      case Reject(_) => (s, [])
      case UpdateJournal(id, data) => (Db.UpdateJournal(s, id, data), [OnSave, OnClose])
      case AddJournal(data) =>
        var added := Db.AddJournal(s, data).value;
        (added.0, [OnSave, OnClose])
  }

  /** Saving an edited entry of project `p` and opening it again shows what was saved. */
  lemma SaveThenFetch(s: Db.Store, e: Editor, before: Editor, k: Key, p: Key)
    requires Db.Valid(s)
    requires e.date.Some? && Truthy(e.content)
    ensures var a := SaveJournal(e, Some(k), Some(p));
            var r := RunSave(s, a, true).0;
            FetchJournal(before, Db.GetJournalsByProjectId(r, p), Some(k)) == e
  {
    var a := SaveJournal(e, Some(k), Some(p));
    var r := RunSave(s, a, true).0;
    var js := Db.GetJournalsByProjectId(r, p);
    assert Row(k, a.data) in js;
    var found := Find(js, Some(k));
    assert found.Some?;
    assert Holds(r.journals, found.value);
  }
}

=== FILE: journal_list.dfy ===
/** The journal cards of the selected project (`JournalList`): which entries show, the
    content preview, and the confirm-delete flow. */
module JournalList {
  import opened Wrappers
  import opened KeyedStore
  import opened Records
  import Db
  import Confirm

  /** How much of the content a card shows before it is cut. */
  const PreviewLength := 100

  /** `content.substring(0, 100) + (content.length > 100 ? '...' : '')`. */
  function Preview(content: string): (r: string)
    ensures |content| <= PreviewLength ==> r == content
    ensures |content| > PreviewLength ==> |r| == PreviewLength + 3
                                          && r[..PreviewLength] == content[..PreviewLength]
                                          && r[PreviewLength..] == "..."
    ensures |r| <= PreviewLength + 3
  {
    content[..if |content| < PreviewLength then |content| else PreviewLength]
    + (if |content| > PreviewLength then "..." else "")
  }

  /** A preview is its own preview: a cut content is exactly 103 long and cuts back to
      itself. */
  lemma PreviewIdempotent(content: string)
    ensures Preview(Preview(content)) == Preview(content)
  {
    if |content| > PreviewLength {
      var p := Preview(content);
      assert p[..PreviewLength] + "..." == p;
    }
  }

  /** Two contents that agree on their first 100 characters and are both longer than
      that have the same preview. */
  lemma PreviewOnlySeesPrefix(a: string, b: string)
    requires |a| > PreviewLength && |b| > PreviewLength
    requires a[..PreviewLength] == b[..PreviewLength]
    ensures Preview(a) == Preview(b)
  {
  }

  /** The entries listed after the effect: none without a selected project, the
      project's entries when the request succeeds, and the previous list when it fails. */
  function JournalsShown(s: Db.Store, selected: Option<Key>, previous: seq<Row<JournalData>>, ok: bool)
    : (r: seq<Row<JournalData>>)
    requires Db.Valid(s)
    ensures selected.None? ==> r == []
    ensures selected.Some? && !ok ==> r == previous
    ensures selected.Some? && ok ==>
              forall row :: row in r <==> Holds(s.journals, row) && row.data.projectId == selected
    ensures selected.Some? && ok ==> Ascending(r)
  {
    match selected
    case None => []
    case Some(p) => if ok then Db.GetJournalsByProjectId(s, p) else previous
  }

  /** The list's state: the database and the confirm-delete dialog. */
  datatype Cards = Cards(store: Db.Store, confirm: Confirm.Dialog)

  /** `handleDeleteJournal(id)`: ask before deleting. */
  function RequestDeleteJournal(c: Cards, id: Key): (r: Cards)
    ensures r.confirm.open && r.confirm.target == Some(id) && r.store == c.store
  {
    c.(confirm := Confirm.Request(id))
  }

  /** `confirmDeleteJournal`: `deleteJournal` on the dialog's entry, then the dialog
      closes whatever happened. `ok` is the outcome of the store request; deleting with
      no entry in the dialog (`null`) is a request the store refuses. */
  function ConfirmDeleteJournal(c: Cards, ok: bool): (r: Cards)
    requires Db.Valid(c.store)
    ensures Db.Valid(r.store)
    ensures !r.confirm.open && r.confirm.target.None?
    ensures r.store.projects == c.store.projects && r.store.tasks == c.store.tasks
    ensures ok && c.confirm.target.Some? ==>
              && c.confirm.target.value !in r.store.journals.rows
              && (forall k | k != c.confirm.target.value ::
                    (k in r.store.journals.rows <==> k in c.store.journals.rows))
              && r.store.journals.rows == c.store.journals.rows - {c.confirm.target.value}
              && r.store.journals.next == c.store.journals.next
    ensures !ok || c.confirm.target.None? ==> r.store == c.store
  {
    if ok && c.confirm.target.Some? then
      Cards(Db.DeleteJournal(c.store, c.confirm.target.value), Confirm.Closed())
    else c.(confirm := Confirm.Closed())
  }

  /** `cancelDeleteJournal`: the dialog closes and the store is untouched. */
  function CancelDeleteJournal(c: Cards): (r: Cards)
    ensures !r.confirm.open && r.confirm.target.None? && r.store == c.store
  {
    c.(confirm := Confirm.Closed())
  }

  /** A confirmed delete removes the entry from its project's cards and from nothing
      else. */
  lemma ConfirmedDeleteDropsCard(c: Cards, p: Key)
    requires Db.Valid(c.store) && c.confirm.target.Some?
    ensures var r := ConfirmDeleteJournal(c, true);
            forall row :: row in Db.GetJournalsByProjectId(r.store, p)
                          <==> row in Db.GetJournalsByProjectId(c.store, p) && row.id != c.confirm.target.value
  {
  }
}

=== FILE: js.dfy ===
/** The few JavaScript value semantics the components rely on: the `||` default
    idiom on falsy values, and `String.prototype.trim`.

    A `char` here is a Unicode scalar value, so `|s|` counts characters; it equals the
    JavaScript `length` (which counts UTF-16 code units) only for text inside the
    Basic Multilingual Plane. */
module Js {
  import opened Wrappers

  /** `v || fallback` for an optional string: `undefined`, `null` and `""` are falsy. */
  function OrString(v: Option<string>, fallback: string): (r: string)
    ensures v.Some? && v.value != "" ==> r == v.value
    ensures v.None? || v.value == "" ==> r == fallback
  {
    match v
    case Some(s) => if s != "" then s else fallback
    case None => fallback
  }

  /** `v || fallback` for an optional integer: `undefined`, `NaN` (both `None`) and `0` are falsy. */
  function OrInt(v: Option<int>, fallback: int): (r: int)
    ensures v.Some? && v.value != 0 ==> r == v.value
    ensures v.None? || v.value == 0 ==> r == fallback
  {
    match v
    case Some(n) => if n != 0 then n else fallback
    case None => fallback
  }

  /** A string is truthy when it is present and not empty. */
  predicate Truthy(v: Option<string>): (b: bool)
    ensures b <==> OrString(v, "") != ""
    ensures b ==> OrString(v, "fallback") == v.value
  {
    v.Some? && v.value != ""
  }

  /** The code points `trim` removes: ECMAScript WhiteSpace (tab, vertical tab, form
      feed, space, no-break space, byte-order mark and the Unicode space separators)
      and LineTerminator (line feed, carriage return, line and paragraph separators). */
  predicate IsWhitespace(c: char) {
    || c == '\t' || c == '\U{B}' || c == '\U{C}' || c == ' ' || c == '\U{A0}' || c == '\U{FEFF}'
    || c == '\n' || c == '\r' || c == '\U{2028}' || c == '\U{2029}'
    || c == '\U{1680}' || ('\U{2000}' <= c <= '\U{200A}') || c == '\U{202F}' || c == '\U{205F}'
    || c == '\U{3000}'
  }

  predicate AllWhitespace(s: string) {
    forall i | 0 <= i < |s| :: IsWhitespace(s[i])
  }

  /** Drops the leading whitespace: the result is the suffix of `s` that starts at
      its first non-whitespace character. */
  function TrimStart(s: string): (r: string)
    ensures |r| <= |s| && r == s[|s| - |r|..]
    ensures AllWhitespace(s[..|s| - |r|])
    ensures r == [] || !IsWhitespace(r[0])
  {
    if s == [] || !IsWhitespace(s[0]) then s else TrimStart(s[1..])
  }

  /** Drops the trailing whitespace: the result is the prefix of `s` that ends at
      its last non-whitespace character. */
  function TrimEnd(s: string): (r: string)
    ensures |r| <= |s| && r == s[..|r|]
    ensures AllWhitespace(s[|r|..])
    ensures r == [] || !IsWhitespace(r[|r| - 1])
  {
    if s == [] || !IsWhitespace(s[|s| - 1]) then s else TrimEnd(s[..|s| - 1])
  }

  /** `s.trim()`. */
  function Trim(s: string): (r: string)
    ensures exists i, j | 0 <= i <= j <= |s| :: r == s[i..j] && AllWhitespace(s[..i]) && AllWhitespace(s[j..])
    ensures r == [] <==> AllWhitespace(s)
    ensures r != [] ==> !IsWhitespace(r[0]) && !IsWhitespace(r[|r| - 1])
  {
    var t := TrimStart(s);
    var r := TrimEnd(t);
    assert r != [] ==> r[0] == t[0];
    Window(s, t, r);
    r
  }

  /** Dropping a whitespace run from the front of `s` and then from the back of what is
      left leaves a window of `s` with only whitespace on either side. */
  lemma Window(s: string, t: string, r: string)
    requires |t| <= |s| && t == s[|s| - |t|..] && AllWhitespace(s[..|s| - |t|])
    requires |r| <= |t| && r == t[..|r|] && AllWhitespace(t[|r|..])
    ensures var i := |s| - |t|; var j := i + |r|;
            r == s[i..j] && AllWhitespace(s[..i]) && AllWhitespace(s[j..])
  {
    SliceOfSuffix(s, |s| - |t|, |r|);
  }

  /** A prefix and a suffix of a suffix `s[i..]` are slices of `s`. */
  lemma SliceOfSuffix(s: string, i: nat, m: nat)
    requires i + m <= |s|
    ensures s[i..][..m] == s[i..i + m] && s[i..][m..] == s[i + m..]
  {
  }

  /** Trimming twice is trimming once. */
  lemma {:induction false} TrimIdempotent(s: string)
    ensures Trim(Trim(s)) == Trim(s)
  {
    var r := Trim(s);
    if r != [] {
      assert TrimStart(r) == r;
      assert TrimEnd(r) == r;
    }
  }
}

=== FILE: keyed_store.dfy ===
/** One IndexedDB object store created with `keyPath: 'id'` and `autoIncrement: true`,
    as an immutable value: the records by key, and the key generator's current number. */
module KeyedStore {
  import opened Wrappers

  /** Keys handed out by an auto-increment key generator: it starts at 1 and only counts up. */
  type Key = k: int | 1 <= k witness 1

  /** A record as read back from the store: its key in the `id` field, then its other fields. */
  datatype Row<R> = Row(id: Key, data: R)

  /** `rows` maps each key to the record's fields other than `id`, so a record read
      back is always `{ id: key, ...rows[key] }`; `next` is the key generator's current
      number, the key the next `add` without an explicit key receives. */
  datatype Collection<R> = Collection(rows: map<Key, R>, next: Key)

  /** The key generator is ahead of every key in use (section 2.11 of the Indexed
      Database API 3.0 keeps it so). */
  predicate Valid<R>(c: Collection<R>) {
    forall k | k in c.rows :: k < c.next
  }

  /** The object store as `createObjectStore` leaves it. */
  function Empty<R>(): (c: Collection<R>)
    ensures Valid(c) && c.rows == map[]
  {
    Collection(map[], 1)
  }

  /** `store.add(data)` with a generated key: fails (a ConstraintError) only when the
      generated key is already taken, which a valid store rules out. On success the
      result is the new store and the generated key. */
  function Add<R>(c: Collection<R>, data: R): (r: Option<(Collection<R>, Key)>)
    ensures Valid(c) ==> r.Some?
    ensures r.Some? ==> r.value.1 !in c.rows && r.value.0.rows == c.rows[r.value.1 := data]
    ensures r.Some? && Valid(c) ==> Valid(r.value.0)
  {
    if c.next in c.rows then None
    else Some((Collection(c.rows[c.next := data], c.next + 1), c.next))
  }

  /** `store.put({ id: k, ...data })`: inserts or replaces the whole record at `k`;
      an explicit key at or above the generator's number moves the generator past it. */
  function Put<R>(c: Collection<R>, k: Key, data: R): (r: Collection<R>)
    ensures k in r.rows && r.rows[k] == data
    ensures forall j | j != k :: (j in r.rows <==> j in c.rows) && (j in c.rows ==> r.rows[j] == c.rows[j])
    ensures Valid(c) ==> Valid(r)
    ensures k < c.next ==> r.next == c.next
    ensures k >= c.next ==> r.next == k + 1
  {
    Collection(c.rows[k := data], if k >= c.next then k + 1 else c.next)
  }

  /** `store.delete(k)`: removes the record at `k` if there is one; deleting a missing
      key succeeds and changes nothing. */
  function Delete<R>(c: Collection<R>, k: Key): (r: Collection<R>)
    ensures k !in r.rows
    ensures forall j | j != k :: (j in r.rows <==> j in c.rows) && (j in c.rows ==> r.rows[j] == c.rows[j])
    ensures k !in c.rows ==> r == c
    ensures r.next == c.next
    ensures Valid(c) ==> Valid(r)
  {
    Collection(c.rows - {k}, c.next)
  }

  /** A row of `c` with the given key and fields. */
  predicate Holds<R(==)>(c: Collection<R>, row: Row<R>) {
    row.id in c.rows && c.rows[row.id] == row.data
  }

  predicate Ascending<R>(rows: seq<Row<R>>) {
    forall i, j | 0 <= i < j < |rows| :: rows[i].id < rows[j].id
  }

  /** The rows with keys in `from .. c.next - 1` whose fields satisfy `keep`, by ascending key. */
  function Scan<R(==)>(c: Collection<R>, keep: R -> bool, from: Key): (r: seq<Row<R>>)
    ensures forall row | row in r :: Holds(c, row) && keep(row.data) && from <= row.id
    ensures forall k | k in c.rows && from <= k < c.next && keep(c.rows[k]) :: Row(k, c.rows[k]) in r
    ensures Ascending(r)
    ensures (forall k | k in c.rows :: !keep(c.rows[k])) ==> r == []
    decreases c.next - from
  {
    if from >= c.next then []
    else
      var rest := Scan(c, keep, from + 1);
      if from in c.rows && keep(c.rows[from]) then [Row(from, c.rows[from])] + rest else rest
  }

  /** `getAll` over the store, or over an index restricted by `keep`: exactly the
      records satisfying `keep`, in ascending key order. */
  function Select<R(==,!new)>(c: Collection<R>, keep: R -> bool): (r: seq<Row<R>>)
    requires Valid(c)
    ensures forall row :: row in r <==> Holds(c, row) && keep(row.data)
    ensures Ascending(r)
    ensures (forall k | k in c.rows :: !keep(c.rows[k])) ==> r == []
  {
    Scan(c, keep, 1)
  }

  /** Deletes every record whose fields satisfy `keep`, and nothing else. */
  function DeleteWhere<R>(c: Collection<R>, keep: R -> bool): (r: Collection<R>)
    ensures forall k :: k in r.rows <==> k in c.rows && !keep(c.rows[k])
    ensures forall k | k in r.rows :: r.rows[k] == c.rows[k]
    ensures r.next == c.next
    ensures Valid(c) ==> Valid(r)
  {
    Collection(map k | k in c.rows && !keep(c.rows[k]) :: c.rows[k], c.next)
  }
}

=== FILE: project_list.dfy ===
/** The project sidebar (`ProjectList`): the add/edit form and its submit, and the
    confirm-delete flow with its effect on the selected project. */
module ProjectList {
  import opened Wrappers
  import opened KeyedStore
  import opened Records
  import opened Js
  import Db
  import Confirm
  import Upcoming

  /** The two text fields of the project dialog. */
  datatype ProjectForm = ProjectForm(name: string, description: string)

  /** `handleAddProject`: both fields empty. */
  function NewProjectForm(): (f: ProjectForm)
    ensures f.name == "" && f.description == ""
  {
    ProjectForm("", "")
  }

  /** `handleEditProject(project)`: the project's fields, `''` where one is missing or empty. */
  function EditProjectForm(p: ProjectData): (f: ProjectForm)
    ensures p.name.Some? ==> f.name == p.name.value
    ensures p.name.None? ==> f.name == ""
    ensures p.description.Some? ==> f.description == p.description.value
    ensures p.description.None? ==> f.description == ""
  {
    ProjectForm(OrString(p.name, ""), OrString(p.description, ""))
  }

  /** What `handleFormSubmit` does: warn and stop, or write the payload. */
  datatype SubmitAction = Reject(message: string) | AddProject(data: ProjectData) | UpdateProject(id: Key, data: ProjectData)

  /** `handleFormSubmit` up to the store call. `editing` is `currentProject.id` when a
      project is being edited. A name of blanks is refused; both fields are trimmed. */
  function SubmitProject(f: ProjectForm, editing: Option<Key>): (a: SubmitAction)
    ensures a.Reject? <==> AllWhitespace(f.name)
    ensures a.Reject? ==> a.message == "Project name is required."
    ensures !a.Reject? ==> a.data == ProjectData(Some(Trim(f.name)), Some(Trim(f.description)))
    ensures !a.Reject? ==> a.data.name.value != "" && Trim(a.data.name.value) == a.data.name.value
    ensures a.UpdateProject? <==> !a.Reject? && editing.Some?
    ensures a.UpdateProject? ==> editing == Some(a.id)
  {
    if Trim(f.name) == "" then Reject("Project name is required.")
    else
      TrimIdempotent(f.name);
      var data := ProjectData(Some(Trim(f.name)), Some(Trim(f.description)));
      match editing
      case Some(id) => UpdateProject(id, data)
      case None => AddProject(data)
  }

  /** The sidebar's state: the database, the selected project (`selectedProjectId`),
      the confirm-delete dialog and whether the project form is open. */
  datatype Sidebar = Sidebar(store: Db.Store, selected: Option<Key>, confirm: Confirm.Dialog, formOpen: bool)

  /** The sidebar after a submit. `ok` is the outcome of the store request. A new
      project becomes the selected one; an edit keeps the selection; a warning or a
      failed request changes nothing. */
  function ApplySubmit(b: Sidebar, a: SubmitAction, ok: bool): (r: Sidebar)
    requires Db.Valid(b.store)
    ensures Db.Valid(r.store)
    ensures r.store.tasks == b.store.tasks && r.store.journals == b.store.journals
    ensures r.confirm == b.confirm
    ensures a.Reject? || !ok ==> r == b
    ensures ok && !a.Reject? ==> !r.formOpen
    ensures ok && a.UpdateProject? ==> Holds(r.store.projects, Row(a.id, a.data)) && r.selected == b.selected
    ensures ok && a.UpdateProject? ==> r.store.projects.rows == b.store.projects.rows[a.id := a.data]
    ensures ok && a.AddProject? ==> r.selected.Some? && r.selected.value !in b.store.projects.rows
                                    && Holds(r.store.projects, Row(r.selected.value, a.data))
                                    && r.store.projects.rows == b.store.projects.rows[r.selected.value := a.data]
  {
    if !ok then b
    else match a
      case Reject(_) => b
      case UpdateProject(id, data) =>
        b.(store := Db.UpdateProject(b.store, id, data), formOpen := false)
      case AddProject(data) =>
        var added := Db.AddProject(b.store, data).value;
        b.(store := added.0, selected := Some(added.1), formOpen := false)
  }

  /** `handleDeleteProject(id)`: ask before deleting. */
  function RequestDeleteProject(b: Sidebar, id: Key): (r: Sidebar)
    ensures r.confirm.open && r.confirm.target == Some(id)
    ensures r.store == b.store && r.selected == b.selected && r.formOpen == b.formOpen
  {
    b.(confirm := Confirm.Request(id))
  }

  /** `confirmDeleteProject`: `deleteProject` on the dialog's project, then the dialog
      closes whatever happened. `ok` is the outcome of the store request; deleting with
      no project in the dialog (`null`) is a request the store refuses. Only the
      project record goes: its tasks and journals stay. */
  function ConfirmDeleteProject(b: Sidebar, ok: bool): (r: Sidebar)
    requires Db.Valid(b.store)
    ensures Db.Valid(r.store)
    ensures !r.confirm.open && r.confirm.target.None?
    ensures r.store.tasks == b.store.tasks && r.store.journals == b.store.journals
    ensures r.store.projects.next == b.store.projects.next
    ensures r.formOpen == b.formOpen
    ensures ok && b.confirm.target.Some? ==>
              var p := b.confirm.target.value;
              && p !in r.store.projects.rows
              && r.store.projects.rows == b.store.projects.rows - {p}
              && (r.selected.None? <==> b.selected.None? || b.selected == Some(p))
              && (b.selected != Some(p) ==> r.selected == b.selected)
    ensures !ok || b.confirm.target.None? ==> r.store == b.store && r.selected == b.selected
  {
    if ok && b.confirm.target.Some? then
      var p := b.confirm.target.value;
      b.(store := Db.DeleteProject(b.store, p),
         selected := if b.selected == Some(p) then None else b.selected,
         confirm := Confirm.Closed())
    else b.(confirm := Confirm.Closed())
  }

  /** `cancelDeleteProject`: the dialog closes and nothing else changes. */
  function CancelDeleteProject(b: Sidebar): (r: Sidebar)
    ensures !r.confirm.open && r.confirm.target.None?
    ensures r.store == b.store && r.selected == b.selected && r.formOpen == b.formOpen
  {
    b.(confirm := Confirm.Closed())
  }

  // ---------------------------------------------------------------- properties

  /** A confirmed delete orphans the project's tasks and journals: the store still
      lists them under the deleted project, and none of its tasks shows in the
      upcoming view any more. */
  lemma DeleteOrphans(b: Sidebar, p: Key)
    requires Db.Valid(b.store) && b.confirm.target == Some(p)
    ensures var r := ConfirmDeleteProject(b, true);
            && Db.GetTasksByProjectId(r.store, p) == Db.GetTasksByProjectId(b.store, p)
            && Db.GetJournalsByProjectId(r.store, p) == Db.GetJournalsByProjectId(b.store, p)
            && (forall v | Upcoming.Listed(r.store, v) :: v.data.projectId != Some(p))
  {
    Db.DeleteProjectOrphans(b.store, p);
  }

  /** Request, then cancel: back where it started. */
  lemma RequestThenCancel(b: Sidebar, id: Key)
    requires !b.confirm.open && b.confirm.target.None?
    ensures CancelDeleteProject(RequestDeleteProject(b, id)) == b
  {
  }

  /** Opening a stored project in the edit form and submitting it unchanged writes the
      same record back. */
  lemma {:induction false} EditProjectRoundTrip(f: ProjectForm, id: Key)
    requires !AllWhitespace(f.name)
    ensures var a := SubmitProject(f, None);
            SubmitProject(EditProjectForm(a.data), Some(id)) == UpdateProject(id, a.data)
  {
    var data := ProjectData(Some(Trim(f.name)), Some(Trim(f.description)));
    assert SubmitProject(f, None) == AddProject(data);
    var g := ProjectForm(Trim(f.name), Trim(f.description));
    assert EditProjectForm(data) == g;
    TrimIdempotent(f.name);
    TrimIdempotent(f.description);
    assert SubmitProject(g, Some(id)) == UpdateProject(id, data);
  }
}

=== FILE: records.dfy ===
/** The shapes of the three kinds of stored record, as the components write them.
    Every field is optional because the store keeps whatever object it was given:
    a record written from a partial payload simply lacks the other fields. */
module Records {
  import opened Wrappers
  import opened KeyedStore

  /** A calendar date `YYYY-MM-DD` as a day number (days since a fixed epoch); the
      ISO string and the day number determine each other. */
  type Day = int

  /** A project: `{ name, description }`. */
  datatype ProjectData = ProjectData(name: Option<string>, description: Option<string>)

  /** A recurrence rule: `frequency` is one of "None", "Daily", "Weekly", "Custom" when
      written by the task form; `interval` is the already-parsed `parseInt` value, with
      `None` for `NaN` or a missing field; `endDate` is `None` for `null`, `""` or missing. */
  datatype Recurrence = Recurrence(frequency: Option<string>, interval: Option<int>, endDate: Option<Day>)

  /** A task: `{ projectId, title, description, dueDate, priority, status, recurrence }`. */
  datatype TaskData = TaskData(
    projectId: Option<Key>,
    title: Option<string>,
    description: Option<string>,
    dueDate: Option<Day>,
    priority: Option<string>,
    status: Option<string>,
    recurrence: Option<Recurrence>)

  /** A journal entry: `{ projectId, date, content }`. */
  datatype JournalData = JournalData(projectId: Option<Key>, date: Option<Day>, content: Option<string>)

  const Completed: string := "Completed"
  const Pending: string := "Pending"
  const NoRecurrence: string := "None"

  /** A task is completed when its status is exactly "Completed". */
  predicate IsCompleted(t: TaskData): (b: bool)
    ensures t.status == Some(Completed) ==> b
    ensures b ==> t.status.Some? && t.status.value == "Completed"
    ensures t.status.None? || t.status == Some(Pending) || t.status == Some("In Progress") ==> !b
  {
    t.status == Some(Completed)
  }
}

=== FILE: reports.dfy ===
/** The project report (`Reports`): four counts over the selected project's tasks and
    journals. */
module Reports {
  import opened Wrappers
  import opened KeyedStore
  import opened Records
  import Db

  /** One card of the report: its caption (`label`) and its number. */
  datatype Entry = Entry(caption: string, value: nat)

  /** `tasks.filter((task) => task.status === 'Completed')`. */
  function CompletedTasks(ts: seq<Row<TaskData>>): (r: seq<Row<TaskData>>)
    ensures |r| <= |ts|
    ensures forall row :: row in r <==> row in ts && IsCompleted(row.data)
    ensures forall row :: multiset(r)[row] == if IsCompleted(row.data) then multiset(ts)[row] else 0
  {
    if ts == [] then []
    else
      var rest := CompletedTasks(ts[1..]);
      assert ts == [ts[0]] + ts[1..];
      assert forall row :: row in ts <==> row == ts[0] || row in ts[1..];
      if IsCompleted(ts[0].data) then [ts[0]] + rest else rest
  }

  /** `tasks.filter((task) => task.status !== 'Completed')`: every other status,
      "In Progress" and a missing one included. */
  function PendingTasks(ts: seq<Row<TaskData>>): (r: seq<Row<TaskData>>)
    ensures |r| <= |ts|
    ensures forall row :: row in r <==> row in ts && !IsCompleted(row.data)
    ensures forall row :: multiset(r)[row] == if IsCompleted(row.data) then 0 else multiset(ts)[row]
  {
    if ts == [] then []
    else
      var rest := PendingTasks(ts[1..]);
      assert ts == [ts[0]] + ts[1..];
      assert forall row :: row in ts <==> row == ts[0] || row in ts[1..];
      if IsCompleted(ts[0].data) then rest else [ts[0]] + rest
  }

  /** The two filters split the list: every task is counted exactly once. */
  lemma {:induction false} CountsPartition(ts: seq<Row<TaskData>>)
    ensures |CompletedTasks(ts)| + |PendingTasks(ts)| == |ts|
  {
    if ts != [] {
      CountsPartition(ts[1..]);
    }
  }

  /** The report of project `p`: total, completed and pending tasks, and journals, in
      this order. */
  function Report(s: Db.Store, p: Key): (r: seq<Entry>)
    requires Db.Valid(s)
    ensures |r| == 4
    ensures r[0].caption == "Total Tasks" && r[1].caption == "Completed Tasks"
    ensures r[2].caption == "Pending Tasks" && r[3].caption == "Total Journals"
    ensures r[0].value == |Db.GetTasksByProjectId(s, p)|
    ensures r[3].value == |Db.GetJournalsByProjectId(s, p)|
    ensures r[1].value == |CompletedTasks(Db.GetTasksByProjectId(s, p))|
    ensures r[2].value == |PendingTasks(Db.GetTasksByProjectId(s, p))|
    ensures r[1].value + r[2].value == r[0].value
    ensures r[1].value == 0 <==> forall row | row in Db.GetTasksByProjectId(s, p) :: !IsCompleted(row.data)
  {
    var tasks := Db.GetTasksByProjectId(s, p);
    var journals := Db.GetJournalsByProjectId(s, p);
    var done := CompletedTasks(tasks);
    CountsPartition(tasks);
    assert done != [] ==> done[0] in done;
    [ Entry("Total Tasks", |tasks|),
      Entry("Completed Tasks", |done|),
      Entry("Pending Tasks", |PendingTasks(tasks)|),
      Entry("Total Journals", |journals|) ]
  }

  /** The report on screen after the effect: empty without a selected project, the new
      report when the requests succeed, and the previous one when they fail. */
  function ReportShown(s: Db.Store, selected: Option<Key>, previous: seq<Entry>, ok: bool): (r: seq<Entry>)
    requires Db.Valid(s)
    ensures selected.None? ==> r == []
    ensures selected.Some? && !ok ==> r == previous
    ensures selected.Some? && ok ==> r == Report(s, selected.value)
    ensures selected.Some? && ok ==> |r| == 4 && r[1].value + r[2].value == r[0].value
  {
    match selected
    case None => []
    case Some(p) => if ok then Report(s, p) else previous
  }
}

=== FILE: task_form.dfy ===
/** The task dialog (`TaskForm`): the form state, its defaults for a new task and its
    prefill from a task being edited, and `handleSave`'s validation, payload and
    choice between adding and updating. */
module TaskForm {
  import opened Wrappers
  import opened KeyedStore
  import opened Records
  import opened Js
  import Db
  import Expansion

  /** The form's state. `interval` is `parseInt` of the interval field (`None` for `NaN`). */
  datatype Form = Form(
    title: string,
    description: string,
    dueDate: Option<Day>,
    priority: string,
    status: string,
    frequency: string,
    interval: Option<int>,
    endDate: Option<Day>)

  /** `resetForm()`: the state of a new task. */
  function ResetForm(): (f: Form)
    ensures f.title == "" && f.description == "" && f.dueDate.None?
    ensures f.priority == "Normal" && f.status == Pending
    ensures f.frequency == NoRecurrence && f.interval == Some(1) && f.endDate.None?
  {
    Form("", "", None, "Normal", Pending, NoRecurrence, Some(1), None)
  }

  /** The edit prefill: every field of the task, or its default when the field is falsy. */
  function Prefill(t: TaskData): (f: Form)
    ensures f.title == OrString(t.title, "") && f.description == OrString(t.description, "")
    ensures f.dueDate == t.dueDate
    ensures f.priority == OrString(t.priority, "Normal") && f.status == OrString(t.status, Pending)
    ensures t.recurrence.None? ==> f.frequency == NoRecurrence && f.interval == Some(1) && f.endDate.None?
    ensures t.recurrence.Some? ==>
              && f.frequency == OrString(t.recurrence.value.frequency, NoRecurrence)
              && f.interval == Some(OrInt(t.recurrence.value.interval, 1))
              && f.endDate == t.recurrence.value.endDate
    ensures f.interval.Some? && f.interval.value != 0
  {
    var rule := t.recurrence;
    Form(
      OrString(t.title, ""),
      OrString(t.description, ""),
      t.dueDate,
      OrString(t.priority, "Normal"),
      OrString(t.status, Pending),
      if rule.Some? then OrString(rule.value.frequency, NoRecurrence) else NoRecurrence,
      Some(if rule.Some? then OrInt(rule.value.interval, 1) else 1),
      if rule.Some? then rule.value.endDate else None)
  }

  /** What `handleSave` does: warn and stop, or write the payload. */
  datatype SaveAction = Reject(message: string) | AddTask(data: TaskData) | UpdateTask(id: Key, data: TaskData)

  /** `taskData`: title and description trimmed, the interval kept only for "Custom"
      (1 otherwise), the end date kept only when the task recurs (empty becomes `null`). */
  function TaskPayload(f: Form, projectId: Option<Key>): (d: TaskData)
    ensures d.projectId == projectId && d.dueDate == f.dueDate
    ensures d.title == Some(Trim(f.title)) && d.description == Some(Trim(f.description))
    ensures d.priority == Some(f.priority) && d.status == Some(f.status)
    ensures d.recurrence.Some? && d.recurrence.value.frequency == Some(f.frequency)
    ensures d.recurrence.value.interval == if f.frequency == "Custom" then f.interval else Some(1)
    ensures d.recurrence.value.endDate == if f.frequency != NoRecurrence then f.endDate else None
  {
    TaskData(
      projectId,
      Some(Trim(f.title)),
      Some(Trim(f.description)),
      f.dueDate,
      Some(f.priority),
      Some(f.status),
      Some(Recurrence(
        Some(f.frequency),
        if f.frequency == "Custom" then f.interval else Some(1),
        if f.frequency != NoRecurrence then f.endDate else None)))
  }

  /** `handleSave` up to the store call. `editing` is `task?.id`. The title is tested
      before it is trimmed. */
  function SaveTask(f: Form, editing: Option<Key>, projectId: Option<Key>): (a: SaveAction)
    ensures a.Reject? <==> f.title == "" || f.dueDate.None?
    ensures a.AddTask? <==> !a.Reject? && editing.None?
    ensures a.UpdateTask? ==> editing == Some(a.id)
    ensures !a.Reject? ==> a.data == TaskPayload(f, projectId)
  {
    if f.title == "" || f.dueDate.None? then Reject("Title and due date are required.")
    else
      var data := TaskPayload(f, projectId);
      match editing
      case Some(id) => UpdateTask(id, data)
      case None => AddTask(data)
  }

  /** The store after `handleSave`, and whether the dialog was closed. `ok` is the
      outcome of the store request; a failed request leaves the store as it was. */
  function ApplySave(s: Db.Store, a: SaveAction, ok: bool): (r: (Db.Store, bool))
    requires Db.Valid(s)
    ensures Db.Valid(r.0)
    ensures r.1 <==> ok && !a.Reject?
    ensures !r.1 ==> r.0 == s
    ensures r.1 && a.UpdateTask? ==> Holds(r.0.tasks, Row(a.id, a.data))
    ensures r.1 && a.UpdateTask? ==> r.0.tasks.rows == s.tasks.rows[a.id := a.data]
    ensures r.1 && a.AddTask? ==> exists k :: k !in s.tasks.rows && Holds(r.0.tasks, Row(k, a.data))
                                              && r.0.tasks.rows == s.tasks.rows[k := a.data]
    ensures r.0.projects == s.projects && r.0.journals == s.journals
  {
    if !ok then (s, false)
    else match a
      case Reject(_) => (s, false)
      case UpdateTask(id, data) => (Db.UpdateTask(s, id, data), true)
      case AddTask(data) =>
        var added := Db.AddTask(s, data).value;
        (added.0, true)
  }

  // ---------------------------------------------------------------- properties

  /** Opening the form on a task with no fields at all shows the same values as a new task. */
  lemma PrefillDefaultsAreReset()
    ensures Prefill(TaskData(None, None, None, None, None, None, None)) == ResetForm()
  {
  }

  /** A title of spaces passes the check (it is tested untrimmed) and is stored as "". */
  lemma WhitespaceTitleStoredEmpty(f: Form, editing: Option<Key>, projectId: Option<Key>)
    requires f.title != "" && AllWhitespace(f.title) && f.dueDate.Some?
    ensures !SaveTask(f, editing, projectId).Reject?
    ensures SaveTask(f, editing, projectId).data.title == Some("")
  {
  }

  /** The step the expansion uses for a saved task: 1 day for "Daily", 7 for "Weekly",
      the entered interval (or 1 when it is 0 or unparsable) for "Custom". */
  lemma SavedStep(f: Form, projectId: Option<Key>)
    ensures var rule := TaskPayload(f, projectId).recurrence.value;
            && (f.frequency == "Daily" ==> Expansion.StepDays(rule) == 1)
            && (f.frequency == "Weekly" ==> Expansion.StepDays(rule) == 7)
            && (f.frequency == "Custom" ==> Expansion.StepDays(rule) == OrInt(f.interval, 1))
  {
    var rule := TaskPayload(f, projectId).recurrence.value;
    assert rule.frequency == Some(f.frequency);
    if f.frequency == "Daily" {
      assert "Daily"[0] != "Weekly"[0];
    } else if f.frequency == "Custom" {
      assert "Custom"[0] != "Weekly"[0];
    }
  }

  /** A saved "None" task does not recur, and any other saved frequency does. */
  lemma SavedRecurs(f: Form, projectId: Option<Key>, id: Key, name: Option<string>)
    ensures Expansion.IsRecurring(Expansion.TaskView(id, TaskPayload(f, projectId), name))
            <==> f.frequency != NoRecurrence
  {
  }

  /** The form a saved payload prefills: the stored values, which are the entered ones
      trimmed and normalised. */
  lemma PrefillOfPayload(f: Form, projectId: Option<Key>)
    requires f.priority != "" && f.status != "" && f.frequency != ""
    ensures var d := TaskPayload(f, projectId);
            Prefill(d) == Form(Trim(f.title), Trim(f.description), f.dueDate, f.priority, f.status,
                               f.frequency, Some(OrInt(d.recurrence.value.interval, 1)), d.recurrence.value.endDate)
  {
  }

  /** The stored payload, prefilled into the form and turned back into a payload, is
      unchanged, provided its title is not blank, its select fields are set, and a
      "Custom" interval is a non-zero number (a 0 or `NaN` interval comes back as 1). */
  lemma {:induction false} PayloadRoundTrip(f: Form, projectId: Option<Key>)
    requires Trim(f.title) != "" && f.dueDate.Some?
    requires f.priority != "" && f.status != "" && f.frequency != ""
    requires f.frequency == "Custom" ==> f.interval.Some? && f.interval.value != 0
    ensures var d := TaskPayload(f, projectId);
            TaskPayload(Prefill(d), projectId) == d && Prefill(d).title != "" && Prefill(d).dueDate.Some?
  {
    PrefillOfPayload(f, projectId);
    TrimIdempotent(f.title);
    TrimIdempotent(f.description);
  }

  /** Editing a saved task and saving it unchanged writes the same record back. */
  lemma EditRoundTrip(f: Form, id: Key, projectId: Option<Key>)
    requires Trim(f.title) != "" && f.dueDate.Some?
    requires f.priority != "" && f.status != "" && f.frequency != ""
    requires f.frequency == "Custom" ==> f.interval.Some? && f.interval.value != 0
    ensures var d := TaskPayload(f, projectId);
            SaveTask(Prefill(d), Some(id), projectId) == UpdateTask(id, d)
  {
    PayloadRoundTrip(f, projectId);
    var g := Prefill(TaskPayload(f, projectId));
    assert !(g.title == "" || g.dueDate.None?);
  }

  /** A blank title survives the first save as "" but makes the next save of the
      unchanged edit form fail. */
  lemma BlankTitleBlocksResave(f: Form, id: Key, projectId: Option<Key>)
    requires f.title != "" && AllWhitespace(f.title) && f.dueDate.Some?
    ensures SaveTask(Prefill(TaskPayload(f, projectId)), Some(id), projectId).Reject?
  {
  }
}

=== FILE: task_list.dfy ===
/** The task list of the selected project (`TaskList`): the status toggle and its
    update payload, and how a task's priority and status are drawn. */
module TaskList {
  import opened Wrappers
  import opened KeyedStore
  import opened Records
  import Db
  import Upcoming

  /** The status the toggle writes: "Completed" becomes "Pending", and every other
      status, a missing one included, becomes "Completed". */
  function ToggleStatus(status: Option<string>): (r: string)
    ensures r == Pending <==> status == Some(Completed)
    ensures r == Completed <==> status != Some(Completed)
  {
    if status == Some(Completed) then Pending else Completed
  }

  /** Toggling twice comes back to the start exactly for "Pending" and "Completed";
      "In Progress" (or anything else) ends at "Pending". */
  lemma ToggleTwice(status: Option<string>)
    ensures Some(ToggleStatus(Some(ToggleStatus(status)))) == status
            <==> status == Some(Pending) || status == Some(Completed)
    ensures status != Some(Completed) ==> ToggleStatus(Some(ToggleStatus(status))) == Pending
  {
  }

  /** The update payload `{ status: updatedStatus }`: every other field is absent. */
  function TogglePayload(t: TaskData): (d: TaskData)
    ensures d.status == Some(ToggleStatus(t.status))
    ensures d.projectId.None? && d.title.None? && d.description.None?
    ensures d.dueDate.None? && d.priority.None? && d.recurrence.None?
  {
    TaskData(None, None, None, None, None, Some(ToggleStatus(t.status)), None)
  }

  /** `handleToggleStatus(task)`: `updateTask(task.id, { status })`. `ok` is the outcome
      of the store request; a failed request changes nothing. */
  function HandleToggleStatus(s: Db.Store, task: Row<TaskData>, ok: bool): (r: Db.Store)
    requires Db.Valid(s)
    ensures Db.Valid(r)
    ensures ok ==> Holds(r.tasks, Row(task.id, TogglePayload(task.data)))
    ensures ok ==> r.tasks.rows == s.tasks.rows[task.id := TogglePayload(task.data)]
    ensures ok && task.id in s.tasks.rows ==> r.tasks.next == s.tasks.next
    ensures !ok ==> r == s
    ensures r.projects == s.projects && r.journals == s.journals
  {
    if ok then Db.UpdateTask(s, task.id, TogglePayload(task.data)) else s
  }

  /** Because the store replaces the whole record, a toggled task keeps only its id and
      status: it loses its project, so it drops out of every project's task list and
      out of the upcoming view, while every other task stays listed as before. */
  lemma ToggleWipesTask(s: Db.Store, task: Row<TaskData>, p: Key)
    requires Db.Valid(s)
    ensures var r := HandleToggleStatus(s, task, true);
            && task.id in r.tasks.rows
            && r.tasks.rows[task.id] == TaskData(None, None, None, None, None, Some(ToggleStatus(task.data.status)), None)
            && (forall row :: row in Db.GetTasksByProjectId(r, p)
                  <==> row in Db.GetTasksByProjectId(s, p) && row.id != task.id)
            && (forall v | Upcoming.Listed(r, v) :: v.id != task.id)
  {
  }

  /** The chip colour of a priority: "error" for "High", "warning" for "Normal",
      "default" for anything else. */
  function PriorityColor(priority: Option<string>): (r: string)
    ensures r == "error" <==> priority == Some("High")
    ensures r == "warning" <==> priority == Some("Normal")
    ensures r == "default" <==> priority != Some("High") && priority != Some("Normal")
  {
    if priority == Some("High") then "error"
    else if priority == Some("Normal") then "warning"
    else "default"
  }

  /** The title's `textDecoration`: struck through exactly when the task is completed. */
  function Decoration(status: Option<string>): (r: string)
    ensures r == "line-through" <==> status == Some(Completed)
    ensures r != "line-through" ==> r == "none"
  {
    if status == Some(Completed) then "line-through" else "none"
  }

  /** Toggling always flips the strike-through, whatever the status was. */
  lemma ToggleFlipsStrikethrough(status: Option<string>)
    ensures Decoration(Some(ToggleStatus(status))) != Decoration(status)
  {
  }
}

=== FILE: upcoming.dfy ===
/** The "Upcoming Pending Tasks" view (`fetchAllPendingTasks` and `getDueDateColor`):
    collect the not-completed tasks of every project tagged with the project's name,
    expand the recurring ones, sort everything by due date, and colour each due date
    relative to today. */
module Upcoming {
  import opened Wrappers
  import opened KeyedStore
  import opened Records
  import opened Expansion
  import Db

  // ---------------------------------------------------------------- collect

  /** The rows of one project that are not completed, each as `{ ...task, projectName }`. */
  function PendingOf(rows: seq<Row<TaskData>>, name: Option<string>): (r: seq<TaskView>)
    ensures |r| <= |rows|
    ensures forall v :: v in r <==> Row(v.id, v.data) in rows && !IsCompleted(v.data) && v.projectName == name
    ensures Ascending(rows) ==> forall i, j | 0 <= i < j < |r| :: r[i].id < r[j].id
  {
    if rows == [] then []
    else
      var rest := PendingOf(rows[1..], name);
      assert forall row :: row in rows <==> row == rows[0] || row in rows[1..];
      if IsCompleted(rows[0].data) then rest
      else [TaskView(rows[0].id, rows[0].data, name)] + rest
  }

  /** `v` is a not-completed task of project `p`, tagged with `p`'s name. */
  predicate OfProject(s: Db.Store, p: Row<ProjectData>, v: TaskView) {
    Holds(s.tasks, Row(v.id, v.data)) && v.data.projectId == Some(p.id)
    && !IsCompleted(v.data) && v.projectName == p.data.name
  }

  /** The order the loop produces: by project key, then by task key. */
  predicate Precedes(a: TaskView, b: TaskView) {
    && a.data.projectId.Some? && b.data.projectId.Some?
    && (|| a.data.projectId.value < b.data.projectId.value
        || (a.data.projectId == b.data.projectId && a.id < b.id))
  }

  predicate InCollectOrder(vs: seq<TaskView>) {
    forall i, j | 0 <= i < j < |vs| :: Precedes(vs[i], vs[j])
  }

  /** Two ordered lists, every item of the first before every item of the second. */
  lemma OrderConcat(a: seq<TaskView>, b: seq<TaskView>)
    requires InCollectOrder(a) && InCollectOrder(b)
    requires forall x, y | x in a && y in b :: Precedes(x, y)
    ensures InCollectOrder(a + b)
  {
    forall i, j | 0 <= i < j < |a + b| ensures Precedes((a + b)[i], (a + b)[j]) {
      if j < |a| {
      } else if i >= |a| {
        assert (a + b)[i] == b[i - |a|] && (a + b)[j] == b[j - |a|];
      } else {
        assert (a + b)[i] in a && (a + b)[j] in b;
      }
    }
  }

  /** The loop over the projects `ps`, in order. */
  function CollectFrom(s: Db.Store, ps: seq<Row<ProjectData>>): (r: seq<TaskView>)
    requires Db.Valid(s)
    ensures forall v :: v in r <==> exists p | p in ps :: OfProject(s, p, v)
    ensures Ascending(ps) ==> InCollectOrder(r)
  {
    if ps == [] then []
    else
      var here := PendingOf(Db.GetTasksByProjectId(s, ps[0].id), ps[0].data.name);
      var rest := CollectFrom(s, ps[1..]);
      assert forall v :: v in here + rest <==> exists p | p in ps :: OfProject(s, p, v) by {
        forall v ensures v in here + rest <==> exists p | p in ps :: OfProject(s, p, v) {
          if v in here {
            assert OfProject(s, ps[0], v);
          } else if v in rest {
            var p :| p in ps[1..] && OfProject(s, p, v);
            assert p in ps;
          }
        }
      }
      assert Ascending(ps) ==> InCollectOrder(here + rest) by {
        if Ascending(ps) {
          assert Ascending(ps[1..]);
          assert InCollectOrder(here) by {
            forall i, j | 0 <= i < j < |here| ensures Precedes(here[i], here[j]) {
              assert here[i] in here && here[j] in here;
            }
          }
          forall x, y | x in here && y in rest ensures Precedes(x, y) {
            var p :| p in ps[1..] && OfProject(s, p, y);
            var k :| 1 <= k < |ps| && ps[k] == p;
          }
          OrderConcat(here, rest);
        }
      }
      here + rest
  }

  /** A task the view lists: stored, not completed, owned by a project that exists,
      and tagged with that project's name. Tasks whose project is gone are not listed. */
  predicate Listed(s: Db.Store, v: TaskView) {
    && Holds(s.tasks, Row(v.id, v.data))
    && !IsCompleted(v.data)
    && v.data.projectId.Some? && v.data.projectId.value in s.projects.rows
    && v.projectName == s.projects.rows[v.data.projectId.value].name
  }

  /** The filter-and-tag loop of `fetchAllPendingTasks`: exactly the listed tasks. */
  function Collect(s: Db.Store): (r: seq<TaskView>)
    requires Db.Valid(s)
    ensures forall v :: v in r <==> Listed(s, v)
    ensures InCollectOrder(r)
  {
    var ps := Db.GetProjects(s);
    var r := CollectFrom(s, ps);
    assert forall v :: v in r <==> Listed(s, v) by {
      forall v ensures v in r <==> Listed(s, v) {
        if Listed(s, v) {
          var k := v.data.projectId.value;
          assert OfProject(s, Row(k, s.projects.rows[k]), v);
          assert Row(k, s.projects.rows[k]) in ps;
        }
      }
    }
    r
  }

  /** The order and the membership pin the list down: any list in collect order that
      holds the same items is the same list. So `Collect` is exactly the listed tasks,
      each once, by project key and then task key. */
  lemma {:induction false} CollectOrderDetermines(a: seq<TaskView>, b: seq<TaskView>)
    requires InCollectOrder(a) && InCollectOrder(b)
    requires forall v :: v in a <==> v in b
    ensures a == b
  {
    assert a != [] ==> a[0] in a && a[0] in b;
    assert b != [] ==> b[0] in b && b[0] in a;
    if a != [] && b != [] {
      FirstIsLeast(a, b[0]);
      FirstIsLeast(b, a[0]);
      assert a[0] == b[0];
      assert a == [a[0]] + a[1..] && b == [b[0]] + b[1..];
      forall v ensures v in a[1..] <==> v in b[1..] {
        FirstIsLeast(a, v);
        FirstIsLeast(b, v);
        if v in a[1..] {
          assert v in a && v != b[0];
          assert v in [b[0]] + b[1..];
        }
        if v in b[1..] {
          assert v in b && v != a[0];
          assert v in [a[0]] + a[1..];
        }
      }
      CollectOrderDetermines(a[1..], b[1..]);
    }
  }

  /** The head of an ordered list precedes every other item of it, and no item of
      the tail is the head. */
  lemma FirstIsLeast(a: seq<TaskView>, v: TaskView)
    requires a != [] && InCollectOrder(a)
    ensures v in a ==> v == a[0] || Precedes(a[0], v)
    ensures v in a[1..] ==> Precedes(a[0], v) && v != a[0]
  {
    if v in a[1..] {
      var i :| 1 <= i < |a| && a[i] == v;
      assert Precedes(a[0], a[i]);
    }
  }

  /** `Collect` is the one ordered list of the listed tasks. */
  lemma CollectIsUnique(s: Db.Store, vs: seq<TaskView>)
    requires Db.Valid(s)
    requires InCollectOrder(vs) && forall v :: v in vs <==> Listed(s, v)
    ensures vs == Collect(s)
  {
    CollectOrderDetermines(vs, Collect(s));
  }

  // ---------------------------------------------------------------- sort

  predicate Dated(vs: seq<TaskView>) {
    forall i | 0 <= i < |vs| :: vs[i].data.dueDate.Some?
  }

  function Due(v: TaskView): Day
    requires v.data.dueDate.Some?
  {
    v.data.dueDate.value
  }

  predicate SortedByDue(vs: seq<TaskView>)
    requires Dated(vs)
  {
    forall i, j | 0 <= i < j < |vs| :: Due(vs[i]) <= Due(vs[j])
  }

  /** `[x]` when `x` is due on day `d`, else nothing. */
  function DueHead(x: TaskView, d: Day): seq<TaskView> {
    if x.data.dueDate == Some(d) then [x] else []
  }

  /** The items due on day `d`, in their order in `vs`. */
  function DueOn(vs: seq<TaskView>, d: Day): seq<TaskView> {
    if vs == [] then [] else DueHead(vs[0], d) + DueOn(vs[1..], d)
  }

  lemma DueOnCons(x: TaskView, xs: seq<TaskView>, d: Day)
    ensures DueOn([x] + xs, d) == DueHead(x, d) + DueOn(xs, d)
  {
    assert ([x] + xs)[1..] == xs;
  }

  lemma {:induction false} DueOnAppend(a: seq<TaskView>, b: seq<TaskView>, d: Day)
    ensures DueOn(a + b, d) == DueOn(a, d) + DueOn(b, d)
  {
    if a == [] {
      assert a + b == b;
    } else {
      assert (a + b)[0] == a[0];
      assert (a + b)[1..] == a[1..] + b;
      DueOnAppend(a[1..], b, d);
    }
  }

  /** Prepending an item due no later than everything keeps a list sorted. */
  lemma SortedCons(x: TaskView, xs: seq<TaskView>)
    requires x.data.dueDate.Some? && Dated(xs) && SortedByDue(xs)
    requires forall i | 0 <= i < |xs| :: Due(x) <= Due(xs[i])
    ensures Dated([x] + xs) && SortedByDue([x] + xs)
  {
  }

  /** A lower bound on the due dates of a list carries over to any permutation of it. */
  lemma BoundByMultiset(lo: Day, xs: seq<TaskView>, ys: seq<TaskView>)
    requires Dated(xs) && forall i | 0 <= i < |xs| :: lo <= Due(xs[i])
    requires multiset(ys) == multiset(xs)
    ensures Dated(ys) && forall i | 0 <= i < |ys| :: lo <= Due(ys[i])
  {
    forall i | 0 <= i < |ys| ensures ys[i].data.dueDate.Some? && lo <= Due(ys[i]) {
      assert ys[i] in multiset(xs);
    }
  }

  /** Inserts `v` after every item due earlier than it and before the rest: the list
      stays sorted and `v` lands ahead of the items due on the same day. */
  function Insert(v: TaskView, vs: seq<TaskView>): (r: seq<TaskView>)
    requires v.data.dueDate.Some? && Dated(vs) && SortedByDue(vs)
    ensures Dated(r) && SortedByDue(r)
    ensures multiset(r) == multiset([v] + vs)
  {
    if vs == [] || Due(v) <= Due(vs[0]) then [v] + vs
    else
      SortedTail(vs);
      var rest := Insert(v, vs[1..]);
      BoundByMultiset(Due(vs[0]), [v] + vs[1..], rest);
      SortedCons(vs[0], rest);
      assert vs == [vs[0]] + vs[1..];
      [vs[0]] + rest
  }

  /** The tail of a sorted list is sorted. */
  lemma SortedTail(vs: seq<TaskView>)
    requires vs != [] && Dated(vs) && SortedByDue(vs)
    ensures Dated(vs[1..]) && SortedByDue(vs[1..])
  {
  }

  /** Moving `v` behind an item due strictly earlier changes no day's list. */
  lemma DueOnSwap(v: TaskView, x: TaskView, xs: seq<TaskView>, rest: seq<TaskView>, d: Day)
    requires v.data.dueDate.Some? && x.data.dueDate.Some? && Due(x) < Due(v)
    requires DueOn(rest, d) == DueOn([v] + xs, d)
    ensures DueOn([x] + rest, d) == DueOn([v] + ([x] + xs), d)
  {
    DueOnCons(x, rest, d);
    DueOnCons(v, xs, d);
    DueOnCons(v, [x] + xs, d);
    DueOnCons(x, xs, d);
    assert DueHead(v, d) == [] || DueHead(x, d) == [];
  }

  /** Insertion keeps the items due on each day in order, with `v` first among them. */
  lemma {:induction false} InsertStable(v: TaskView, vs: seq<TaskView>, d: Day)
    requires v.data.dueDate.Some? && Dated(vs) && SortedByDue(vs)
    ensures DueOn(Insert(v, vs), d) == DueOn([v] + vs, d)
    decreases |vs|
  {
    if vs != [] && Due(v) > Due(vs[0]) {
      SortedTail(vs);
      InsertStable(v, vs[1..], d);
      DueOnSwap(v, vs[0], vs[1..], Insert(v, vs[1..]), d);
      assert [vs[0]] + vs[1..] == vs;
    }
  }

  /** `expandedTasks.sort((a, b) => new Date(a.dueDate) - new Date(b.dueDate))`:
      ascending by due date, and stable (section 22.1.3.27 of ECMAScript 2019 and
      later): the items due on one day keep their relative order. */
  function SortByDue(vs: seq<TaskView>): (r: seq<TaskView>)
    requires Dated(vs)
    ensures Dated(r) && SortedByDue(r)
    ensures multiset(r) == multiset(vs)
    ensures forall d :: DueOn(r, d) == DueOn(vs, d)
  {
    if vs == [] then []
    else
      var rest := SortByDue(vs[1..]);
      var r := Insert(vs[0], rest);
      assert vs == [vs[0]] + vs[1..];
      assert forall d :: DueOn(r, d) == DueOn(vs, d) by {
        forall d ensures DueOn(r, d) == DueOn(vs, d) {
          InsertStable(vs[0], rest, d);
          DueOnAppend([vs[0]], rest, d);
          DueOnAppend([vs[0]], vs[1..], d);
        }
      }
      r
  }

  // ---------------------------------------------------------------- the view

  /** What the view needs of a listed task: a due date (the sort compares dates and
      the loop starts from one) and a loop that returns. */
  predicate Viewable(vs: seq<TaskView>) {
    forall i | 0 <= i < |vs| :: vs[i].data.dueDate.Some? && Expandable(vs[i])
  }

  /** `fetchAllPendingTasks`: collect, expand, sort. Every item is a listed task at its
      own or a generated due date, the list is ascending by due date, and items due
      on the same day keep the order the expansion produced them in. */
  function PendingView(s: Db.Store): (r: seq<TaskView>)
    requires Db.Valid(s) && Viewable(Collect(s))
    ensures Dated(r) && SortedByDue(r)
    ensures forall o | o in r :: exists v | Listed(s, v) :: SameExceptDue(o, v)
    ensures forall o | o in r :: !IsCompleted(o.data)
    ensures forall d :: DueOn(r, d) == DueOn(Expand(Collect(s)), d)
  {
    var c := Collect(s);
    var e := Expand(c);
    assert Dated(e) by {
      forall i | 0 <= i < |e| ensures e[i].data.dueDate.Some? {
        assert FromTasks(e[i], c);
      }
    }
    var r := SortByDue(e);
    assert forall o | o in r :: exists v | Listed(s, v) :: SameExceptDue(o, v) by {
      forall o | o in r ensures exists v | Listed(s, v) :: SameExceptDue(o, v) {
        assert o in multiset(e);
        assert FromTasks(o, c);
      }
    }
    r
  }

  // ---------------------------------------------------------------- due-date colour

  /** `getDueDateColor(dueDate)` with today's date passed in: overdue, due today, due
      tomorrow, or later. A missing due date compares false with every date and so
      falls through to "success.main". */
  function DueDateColor(due: Option<Day>, today: Day): (r: string)
    ensures r == "error.main" <==> due.Some? && due.value < today
    ensures r == "warning.main" <==> due == Some(today)
    ensures r == "info.main" <==> due == Some(today + 1)
    ensures r == "success.main" <==> due.None? || due.value > today + 1
  {
    match due
    case None => "success.main"
    case Some(d) =>
      if d < today then "error.main"
      else if d == today then "warning.main"
      else if d == today + 1 then "info.main"
      else "success.main"
  }

  /** How pressing a colour reads: overdue 3, today 2, tomorrow 1, later 0. */
  function Urgency(color: string): nat {
    if color == "error.main" then 3
    else if color == "warning.main" then 2
    else if color == "info.main" then 1
    else 0
  }

  /** A later due date never looks more pressing than an earlier one. */
  lemma ColorUrgencyMonotone(d1: Day, d2: Day, today: Day)
    requires d1 <= d2
    ensures Urgency(DueDateColor(Some(d1), today)) >= Urgency(DueDateColor(Some(d2), today))
  {
  }
}

=== FILE: wrappers.dfy ===
/** The absent-or-present value used for every optional field of a stored record.
    `None` stands for a JavaScript property that is missing, `undefined` or `null`. */
module Wrappers {

  datatype Option<+T> = None | Some(value: T)
}
